=== FILE: README.md ===
# Binance futures streaming client and market store, in Dafny

This project models the real-time core of a Binance USDⓈ-M futures
dashboard. It covers three parts:

- **The main streaming client.** `createBinanceWebSocket` in
  `src/services/binanceApi.js` opens three WebSocket channels: ticker, depth
  and trades.
  - Each channel has a reconnection state machine: a capped exponential
    backoff, a 60 s cooldown after the tenth attempt, and close codes 1000
    and 1001 that suppress a reconnect.
  - Field sanitizers turn ticker, trade and kline frames into typed
    records.
  - An order-book reconstructor uses a sequence cursor, keeps only
    positive levels, merges them into price maps, sorts each side and cuts
    it to 20 levels.
  - `start`/`stop` are modelled too.
- **The store** `src/stores/market.js`:
  - `setTicker`, `setOrderBook`, `pushTrade` (newest first, capped at 500)
    and `updateLastCandle`;
  - the subscriber filters that `connectRealtime` installs;
  - the candle merge-or-append on a series capped at 500;
  - the guard that makes `connectRealtime` run once.
- **The older client** `futures-vue/src/services/binanceApi.js`. It uses the
  same backoff but reconnects after every close. It gives up for good at the
  tenth attempt, forwards frames without sanitizing or merging, and its
  `stop()` does nothing.

Each module follows one part of the program:

| module | file | models |
|---|---|---|
| `JsValues` | `js_values.dfy` | JavaScript values: `parseFloat`, NaN, `x \|\| 0` and `Math.floor(t / 1000)` |
| `Records` | `records.dfy` | the typed payloads: ticker, trade, candle, level and book view |
| `Backoff` | `backoff.dfy` | the constants and `min(1000·2^(n−1), 30000)` |
| `Channel` | `channel.dfy` | one channel's `connect`, `reconnect`, `onopen`, `onclose`, timers and `stop`, for both policies |
| `Supervisor` | `supervisor.dfy` | properties of the main client's retry policy |
| `LegacySupervisor` | `legacy_supervisor.dfy` | properties of the older client's retry policy |
| `Sanitize` | `sanitize.dfy` | the ticker, trade and kline sanitizers |
| `OrderBook` | `order_book.dfy` | the `orderbook` branch of `handleMessage` |
| `StreamClient` | `stream_client.dfy` | the whole main client |
| `LegacyClient` | `legacy_client.dfy` | the whole older client |
| `MarketStore` | `market_store.dfy` | the store |
| `Scenarios` | `scenarios.dfy` | concrete end-to-end runs |

Time is not measured. Every timer is a record with an id, a delay and an
action, and the environment fires timers by id. The socket constructor's
failure, the close code and `Date.now()` are parameters. A JavaScript number
is `NaN` or a real; a raw JSON field is `Absent` (falsy and not a number) or
`Present` with what `parseFloat` makes of it.

## Behaviour worth knowing

Several behaviours follow from the code but are easy to miss when reading
it. Line numbers refer to `src/services/binanceApi.js` unless another file
is named. A lemma states what the code does in each case.

- **A zero-quantity level never removes a price.** The `orderbook` branch
  has a delete branch for `qty === 0` (lines 219-223 for bids, 227-231 for
  asks). Levels are filtered with `p > 0 && q > 0` earlier (lines 210-211),
  so that branch is dead. A diff can never remove a price; only the cut to
  20 levels drops one.
  - `OrderBook.MergeNeverRemoves` proves this in general.
  - `Scenarios.ZeroQuantityDiffKeepsLevel` shows it on the example `{u: 5,
    b: [["100", "0"]]}`: bids stay `[[100, 1], [99, 2]]`, the cursor becomes
    5 and nothing is published.
- **Reconnect listeners are never called.** The client keeps a
  `reconnect` listener list (line 63) that `subscribeReconnect` fills (line
  289). The store registers `handleReconnect` there
  (`src/stores/market.js` line 114), which would re-fetch the ticker, book
  or trades over REST (`src/stores/market.js` lines 64-83). But `onopen`
  sets the counter to 0 (line 82) before it tests `> 0` (line 99).
  `StreamClient.NoReconnectNotification` proves that no run of events
  publishes a notification, so `handleReconnect` never runs.
- **The REST snapshot never enters the client's book.** The store loads a
  REST book (`src/stores/market.js` line 53). Opening the depth channel
  clears the client-side book and cursor (lines 84-87), so the first diff
  merges into an empty book. The store's REST snapshot is then replaced by
  the first published book (`Scenarios.StoreMirrorsClientBook`).
- **`stop()` does not stop every retry.** It closes the sockets (line 301)
  and clears only the timers stored in `reconnectTimers` (lines 304-306):
  - The 60 s cooldown timer (line 141) is never stored. It survives and
    later restarts the channel (`Supervisor.StopLeavesCooldownArmed`).
  - `stop()` calls `close()` without a code. Under section 7.1.5 of RFC 6455
    the close code is taken from the server's closing reply, so it is
    typically 1005 (a reply without a status code), or 1006 when the socket
    was still connecting. A close code other than 1000 or 1001 schedules a
    reconnect (line 124), so the stopped channel comes back
    (`Supervisor.StopThenAbnormalCloseReconnects`, for every such code).
  - `start()` stores each new poll interval under the same key (line
    179). A second `start()` before `stop()` leaks a kline poll interval
    (`StreamClient.DoubleStartLeaksPoll`).
- **No kline channel is opened.** Only three sockets are opened (lines
  152-154). The `kline` branch of `handleMessage` (lines 261-282) is
  unreachable, and candles come only from the 60 s REST poll (lines
  156-177). The branch is still modelled as `Sanitize.SanitizeKline`.
- **Negative prices pass the client.** The sanitizers discard only NaN and
  0 (lines 190, 253 and 270), so negative prices reach subscribers. The
  store's filters (`> 0`, `src/stores/market.js` lines 86, 96 and 104) drop
  them.
- **An undefined update id passes the stale check.** `data.u ||
  data.lastUpdateId` (line 200) can be undefined, and the comparison
  `updateId < lastUpdateId` (line 204) is false when either side is
  undefined. Such a frame is therefore never stale, and line 208 sets the
  cursor to undefined (`OrderBook.IsStale`, `OrderBook.UpdateId`).

## Model

| member | source | states |
|---|---|---|
| `Backoff.Delay` | src/services/binanceApi.js:144-145 | the delay after the n-th counted failure lies between 1000 and 30000 ms |
| `Backoff.DelayDoubles` | src/services/binanceApi.js:145 | each further failure doubles the delay until it reaches the 30000 ms cap |
| `Backoff.DelayMonotone` | src/services/binanceApi.js:145 | delays never shrink as the counter grows |
| `Backoff.DelaySchedule` | src/services/binanceApi.js:144-145 | the delay stays below the 30000 ms cap exactly for the first five attempts; delays are 1000, 2000, 4000, 8000, 16000 ms, then 30000 ms for every later attempt |
| `JsValues.FloorDiv` | src/services/binanceApi.js:273 | `Math.floor(t / 1000)` is the whole number of seconds whose bucket contains `t` |
| `Channel.Reconnect` | src/services/binanceApi.js:134-149 | below 10 the counter goes up by one and one tracked `connect` is scheduled after `Delay`; at 10 the counter resets and one untracked retry is scheduled after 60000 ms; the older policy does nothing at 10 |
| `Channel.Connect` | src/services/binanceApi.js:68-131 | the tracked timer is cleared and every other timer kept; the channel is connecting with no ping, the same counter, the same stored handle and the same supply of fresh timer ids; a throwing constructor leaves a live socket closing and hands the channel, tracked timer cleared, to `reconnect` |
| `Channel.OnOpen` | src/services/binanceApi.js:81-102 | an open resets the counter, starts pinging, leaves the timers alone, and never notifies |
| `Channel.OnClose` | src/services/binanceApi.js:118-127 | a close stops pinging; the main client reconnects exactly for codes other than 1000 and 1001, the older one always |
| `Channel.FireTimer` | src/services/binanceApi.js:141-148 | a timer that is not pending (never set, already fired or cleared) changes nothing; a pending timer is removed and then runs `connect` or, for the cooldown, `reconnect` on the rest; a successful `connect` leaves no timer with that id |
| `Channel.Step` | src/services/binanceApi.js:81-127 | an open of a connecting socket is `onopen`, a close of a live or closing socket is `onclose`, a timer event fires that timer, any other open or close leaves the channel as it is, and no event produces a reconnect notification |
| `Channel.Stop` | src/services/binanceApi.js:294-310 | after `stop()` no timer is tracked, the counter is 0, exactly the tracked timer is gone; a live or closing socket is closing and a dead one forgotten; pinging and timer ids are untouched |
| `Supervisor.ConnectFromFresh` | src/services/binanceApi.js:151-154 | the first `connect` leaves a channel connecting, or waiting for one retry if the constructor throws |
| `Supervisor.StepKeepsSteady` | src/services/binanceApi.js:68-149 | every event keeps at most one retry pending, whose delay and action follow from the counter, and none while the socket is live |
| `Supervisor.CloseSchedulesRetryUnlessNormal` | src/services/binanceApi.js:118-127 | a close leaves one retry pending exactly when its code is not 1000 or 1001; a normal close leaves none and the counter as it was |
| `Supervisor.RetryNeverLapses` | src/services/binanceApi.js:138-142 | a channel waiting for a retry is, after any event, connecting again or still waiting: it never goes dark |
| `Supervisor.CounterAfterIsCyclic` | src/services/binanceApi.js:138-144 | under repeated failure the counter runs through 0..10 cyclically |
| `Supervisor.FailRound` | src/services/binanceApi.js:118-149 | a failed retry leaves the channel waiting for the next retry, with the counter advanced or reset after 10 |
| `Supervisor.RetryDelayAt` | src/services/binanceApi.js:134-149 | the i-th retry delay under repeated failure is the pending delay for the counter after i failures |
| `Supervisor.RetryDelaysCycle` | src/services/binanceApi.js:134-149 | retry delays repeat with period 11: the ten backoff delays, then the 60000 ms cooldown |
| `Supervisor.FailureDelaySequence` | src/services/binanceApi.js:134-149 | from an abnormal close of an open channel, the delays are 1000, 2000, 4000, 8000, 16000, five times 30000, 60000, then 1000 again |
| `Supervisor.StopCancelsTrackedRetry` | src/services/binanceApi.js:304-306 | after `stop()` the retry that was tracked no longer fires |
| `Supervisor.StopLeavesCooldownArmed` | src/services/binanceApi.js:138-148 | the cooldown timer survives `stop()`; when it fires the channel schedules a `connect` after 1000 ms |
| `Supervisor.StopThenAbnormalCloseReconnects` | src/services/binanceApi.js:118-127 | a socket closed by `stop()` whose close code is not 1000 or 1001 still schedules a reconnect after 1000 ms |
| `Supervisor.OpenResetsBackoff` | src/services/binanceApi.js:81-82 | after a successful open, whatever the counter was, an abnormal close tracks one retry after 1000 ms with the counter at 1 |
| `LegacySupervisor.StepKeepsSteady` | futures-vue/src/services/binanceApi.js:65-131 | every event keeps at most one `connect` pending, after `Delay(counter)` |
| `LegacySupervisor.EveryCloseReconnects` | futures-vue/src/services/binanceApi.js:105-111 | every close, whatever its code, stops pinging and schedules the next attempt below the maximum |
| `LegacySupervisor.CloseAtMaximumGivesUp` | futures-vue/src/services/binanceApi.js:118-125 | at 10 attempts a close schedules nothing and the counter stays at 10 |
| `LegacySupervisor.DarkIsPermanent` | futures-vue/src/services/binanceApi.js:118-125 | a channel down with nothing pending is unchanged by every later event |
| `LegacySupervisor.FailRound` | futures-vue/src/services/binanceApi.js:105-131 | a failed retry advances the counter and leaves one retry pending, or at 10 leaves the channel dark |
| `LegacySupervisor.DelaysUntilGivingUpAt` | futures-vue/src/services/binanceApi.js:126-127 | the i-th remaining retry is scheduled after `Delay(counter + i)` |
| `LegacySupervisor.FailureDelaySequence` | futures-vue/src/services/binanceApi.js:118-131 | an open channel that keeps failing is retried after 1000, 2000, 4000, 8000, 16000 and five times 30000 ms, then never again |
| `Sanitize.SanitizeTicker` | src/services/binanceApi.js:183-198 | a ticker is discarded exactly when its price is NaN or 0; otherwise the price is kept, and NaN change/volume become 0 and NaN high/low become the price |
| `Sanitize.TickerRoundTrip` | src/services/binanceApi.js:183-198 | the frame of any ticker with non-zero price sanitizes back to that ticker |
| `Sanitize.TickerFieldsIndependent` | src/services/binanceApi.js:184-198 | a corrupt secondary field never causes a discard and affects only its own output |
| `Sanitize.SanitizeTrade` | src/services/binanceApi.js:249-260 | a trade is discarded exactly when price or quantity is NaN or 0; side is sell exactly when `m`; a missing or zero `T` becomes the clock |
| `Sanitize.TradeRoundTrip` | src/services/binanceApi.js:249-260 | the frame of any trade with non-zero price, quantity and time sanitizes back to that trade |
| `Sanitize.SanitizeKline` | src/services/binanceApi.js:261-281 | a candle is produced exactly for a closed kline with a usable close; its time is the second containing `t`; every field is numeric; a NaN open, high or low becomes the close and a NaN volume 0; every numeric field is kept as parsed |
| `Sanitize.KlineFieldsIndependent` | src/services/binanceApi.js:261-281 | a corrupt secondary kline field never causes a discard and affects only its own output |
| `Sanitize.KlineRoundTrip` | src/services/binanceApi.js:261-281 | the closed-kline frame of any numeric candle with non-zero close sanitizes back to it, wherever in its second `t` falls |
| `OrderBook.ValidLevels` | src/services/binanceApi.js:210-211 | the kept levels are positive, nothing is kept exactly when no pair is usable, and every usable pair and only those is kept |
| `OrderBook.UpdateId` | src/services/binanceApi.js:200 | a present non-zero `u` is the update id; a missing or zero `u` falls back to `lastUpdateId`, the JavaScript `\|\|` on integers |
| `OrderBook.IsStale` | src/services/binanceApi.js:202-205 | before the first frame, or with an undefined id on either side, nothing is stale; otherwise a frame is stale exactly when its id is below the cursor |
| `OrderBook.Insert` | src/services/binanceApi.js:218-231 | inserting a level keeps the listing strictly ordered and is `Map.set` on the map it stands for |
| `OrderBook.UpsertAll` | src/services/binanceApi.js:215-232 | upserting levels in turn keeps the listing ordered and gives the `Map` that successive `set` calls build |
| `OrderBook.TopOfOrdered` | src/services/binanceApi.js:234-242 | the first 20 entries of an ordered listing are the best 20 entries of its map |
| `OrderBook.MergeSide` | src/services/binanceApi.js:215-242 | a new side lists the best min(20, size) entries of the old side merged with the frame's levels, in price order, each with its merged quantity |
| `OrderBook.MergeNeverRemoves` | src/services/binanceApi.js:210-232 | no frame removes a price from the merged map |
| `OrderBook.NonEmptyAfterMerge` | src/services/binanceApi.js:213-248 | a merge with at least one level gives a non-empty side |
| `OrderBook.ApplyDiff` | src/services/binanceApi.js:199-248 | a stale frame changes nothing; any other frame moves the cursor to its id; the book is published exactly when the frame is fresh and has a usable level, and the published view is the new book, the best 20 of each merged side; well-formed books stay well formed |
| `OrderBook.ApplyAllKeepsWellFormed` | src/services/binanceApi.js:199-248 | under any sequence of frames the book stays sorted, free of repeated prices, positive and at most 20 deep |
| `StreamClient.Handle` | src/services/binanceApi.js:104-112 | a socket event runs `Step` on its own channel only and keeps the polls and, except for a depth open that clears it, the book; no reconnect notification; a non-payload frame changes nothing; a ticker or trade payload publishes exactly the sanitizer's record when it keeps one and nothing otherwise; a depth payload replaces the book by `ApplyDiff`'s and publishes exactly its view; published tickers have non-zero price and published books a non-empty side |
| `StreamClient.StartAll` | src/services/binanceApi.js:151-180 | every channel whose constructor succeeds is connecting with no ping, the same counter, the same stored handle and timer-id supply, and its tracked timer cleared; for one that throws, a live socket is closing and `reconnect` runs with the tracked timer cleared (counting the failure and tracking the next `connect` below 10, resetting and arming the untracked cooldown at 10); one more poll runs and it is tracked; the book is unchanged |
| `StreamClient.StopAll` | src/services/binanceApi.js:294-310 | every channel is stopped as `Channel.Stop` does it: a live socket becomes closing, no timer is tracked, the counter is 0, and exactly its tracked timer is lost; the tracked poll, if any, is cleared and no poll is tracked afterwards; the book is unchanged |
| `StreamClient.NoReconnectNotification` | src/services/binanceApi.js:81-102 | no run of events ever publishes a reconnect notification |
| `StreamClient.RunKeepsBookWellFormed` | src/services/binanceApi.js:84-87 | across socket events, opens and frames the client's book stays well formed |
| `StreamClient.DoubleStartLeaksPoll` | src/services/binanceApi.js:156-179 | `start`, `start`, `stop` leaves one kline poll running |
| `LegacyClient.ForwardLevels` | futures-vue/src/services/binanceApi.js:173-176 | every pair of a depth frame is forwarded, parsed, in frame order |
| `LegacyClient.ForwardTicker` | futures-vue/src/services/binanceApi.js:165-172 | each ticker field is forwarded as parsed, NaN included, and a missing field as 0 |
| `LegacyClient.ForwardTrade` | futures-vue/src/services/binanceApi.js:177-183 | side is sell exactly when `m`; price and quantity are forwarded as parsed and as 0 when missing; time is `T` unless missing or 0, then the clock |
| `LegacyClient.ForwardKline` | futures-vue/src/services/binanceApi.js:184-195 | a candle is forwarded exactly for a closed kline; its time is the second containing `t`; every field is forwarded as parsed, NaN included |
| `LegacyClient.LegacyHandle` | futures-vue/src/services/binanceApi.js:164-208 | `stop` changes nothing; a socket event runs the give-up `Step` on its own channel and changes nothing else; `start` adds a poll and connects each channel, a throwing constructor handing it to the give-up `reconnect`; a ticker, depth or trade payload is forwarded exactly as `ForwardTicker`, `ForwardLevels` on both sides or `ForwardTrade` makes it, and nothing else is published; messages leave the state alone |
| `LegacyClient.ForwardTickerAgreesWithSanitizer` | futures-vue/src/services/binanceApi.js:165-172 | on a frame with all fields present and numeric, the older client forwards the ticker the main client publishes |
| `LegacyClient.MissingPriceForwardedAsZero` | futures-vue/src/services/binanceApi.js:166-172 | a ticker without `c` is forwarded with price 0 where the main client discards it |
| `LegacyClient.ForwardThenFilterIsValidLevels` | futures-vue/src/services/binanceApi.js:173-176 | the main client's kept levels are exactly the forwarded pairs with positive price and quantity, in order |
| `LegacyClient.ForwardTradeAgreesWithSanitizer` | futures-vue/src/services/binanceApi.js:177-183 | on a trade the main client keeps, the older client forwards the same trade |
| `LegacyClient.ForwardKlineAgreesWithSanitizer` | futures-vue/src/services/binanceApi.js:184-195 | on a closed kline without NaN fields and with usable close, both clients produce the same candle |
| `LegacyClient.StopChangesNothing` | futures-vue/src/services/binanceApi.js:208 | `stop()` leaves the state as it was, and a later close still schedules a reconnect |
| `LegacyClient.PollsOnlyGrow` | futures-vue/src/services/binanceApi.js:133-162 | every `start` adds a kline poll that nothing clears |
| `MarketStore.SetTicker` | src/stores/market.js:20-26 | `lastPrice` is always set; each other field takes the supplied number and is otherwise unchanged; nothing else changes |
| `MarketStore.SetTickerIdempotent` | src/stores/market.js:20-26 | applying the same ticker twice equals applying it once |
| `MarketStore.SetTickerLastWins` | src/stores/market.js:20-26 | a complete ticker overrides whatever an earlier one wrote |
| `MarketStore.TickerRoundTrip` | src/stores/market.js:20-26 | a client ticker stored and read back is the same ticker |
| `MarketStore.SetOrderBook` | src/stores/market.js:27-30 | both sides are replaced and nothing else changes |
| `MarketStore.PushTrade` | src/stores/market.js:31-34 | the new trade is first, the old tape follows in order, and the length is min(old + 1, 500) |
| `MarketStore.PushAllIsReversedPrefix` | src/stores/market.js:31-34 | pushing a batch one by one gives the batch reversed in front of the old tape, cut at 500 |
| `MarketStore.UpdateLastCandle` | src/stores/market.js:38-41 | an empty series is unchanged; otherwise the length and every candle but the last stay, and the last becomes `Assign` of the old last candle and the patch |
| `MarketStore.Assign` | src/stores/market.js:40 | each key the patch carries replaces the candle's value and each key it lacks keeps it |
| `MarketStore.UpdateLastCandleIdempotent` | src/stores/market.js:38-41 | applying the same patch twice equals applying it once |
| `MarketStore.FullPatchReplaces` | src/stores/market.js:38-41 | a whole candle as patch replaces the last candle |
| `MarketStore.ApplyCandleUpdate` | src/stores/market.js:103-113 | a non-positive close is ignored; the last candle's time merges in place; any other is appended, dropping the oldest past 500; the update ends the series; at most 500 stays at most 500 |
| `MarketStore.CandleUpdateKeepsOrder` | src/stores/market.js:103-113 | an update no older than the last candle keeps times strictly increasing |
| `MarketStore.OlderCandleIsAppendedOutOfOrder` | src/stores/market.js:103-113 | an update older than the last candle is appended after it and breaks the time order |
| `MarketStore.Receive` | src/stores/market.js:85-99 | tickers are stored only with price > 0, books only with a non-empty side, trades only with price and quantity > 0; an accepted update changes only its own fields (ticker fields, both sides, or the tape); anything else, reconnect notifications included, leaves the store unchanged |
| `MarketStore.ConnectRealtime` | src/stores/market.js:60-115 | a connected store returns at once; otherwise it is marked connected and the client is started as `StartAll` does it, with one more poll |
| `MarketStore.ConnectRealtimeIdempotent` | src/stores/market.js:60-62 | a second `connectRealtime` changes nothing, so the client starts once |
| `Scenarios.ZeroPriceTickerIsDiscarded` | src/services/binanceApi.js:190 | a ticker frame with `c: "0"` leaves client and store unchanged at 68500 / 68600 / 66000 |
| `Scenarios.ZeroQuantityDiffKeepsLevel` | src/services/binanceApi.js:200-213 | `{u: 5, b: [["100", "0"]]}` keeps bids `[[100, 1], [99, 2]]`, sets the cursor to 5 and publishes nothing |
| `Scenarios.OlderDiffIsStale` | src/services/binanceApi.js:200-206 | a following `{u: 3}` changes nothing |
| `Scenarios.NewBidIsMergedInOrder` | src/services/binanceApi.js:215-248 | a bid at 101 is merged first, ahead of 100 and 99, and the book is published |
| `Scenarios.StoreMirrorsClientBook` | src/stores/market.js:90-94 | whenever the client publishes a book, the store holds exactly the client's book |
| `Scenarios.SameTimeCandleReplacesLast` | src/stores/market.js:103-108 | a bar for the last stored candle's time replaces it instead of adding a duplicate |

## Left out

- REST fetchers (`fetchTicker`, `fetchOrderBook`, `fetchTrades`,
  `fetchKlines`) and the body of the 60 s kline poll: network I/O. Only the
  poll interval's lifetime is modelled.
- `loadInitialData`, `handleReconnect`, `setCandles` and Pinia reactivity:
  asynchronous REST orchestration and framework glue.
  - `handleReconnect` is never called anyway, so a reconnect notification
    leaves the store unchanged in `MarketStore.Receive`.
- `futures-vue/vite.config.js`: build tooling.
- WebSocket objects, ping sending, `onerror` and console logging: host I/O.
  The ping interval is the flag `pinging`.
- `Date.now()` is the parameter `now`. The socket constructor's failure and
  close codes are event parameters.
- Fan-out to several listeners: each event publishes at most one payload.
  Listeners of a kind are called with it in registration order. A listener
  that throws ends the `forEach` (lines 192, 247 and 255 of
  `src/services/binanceApi.js`), so later listeners miss that payload and
  line 109 logs the error as a parse error; this is not modelled.
- JSON parsing: frames arrive already split into fields, as `Garbled`,
  `Control` (`pong` or `result: null`) or `Payload`.
  - `Absent` stands for undefined, null and the empty string alike.
  - Infinities and IEEE rounding are not modelled. Prices are reals.
- Close events of a socket that `connect` has replaced: only each channel's
  current socket delivers events. In the code, a replaced socket's late close
  event would also call `reconnect`.
- `LegacyClient.ForwardKline`: the older client opens no kline socket
  either, so this branch is modelled as a function with no event that
  reaches it.
- `OrderBook.IsStale`: a JSON `null` in `u` or `lastUpdateId` is folded
  into the missing case. In the code `u || lastUpdateId` can then be
  `null`, and `null < cursor` compares as `0 < cursor`, so such a frame is
  discarded after a positive cursor; the model treats it as never stale and
  accepts it.
- `MarketStore.UpdateLastCandle`: a key present with the value `undefined`
  (which `Object.assign` would copy) is not modelled. A patch key is either
  missing or carries a number.
- `MarketStore.SetTicker`: a missing `price` (which would store `undefined`)
  is not modelled.

=== FILE: backoff.dfy ===
/** The capped exponential backoff shared by both client variants. */
module Backoff {

  const MaxAttempts: nat := 10
  const BaseDelayMs: nat := 1000
  const MaxDelayMs: nat := 30000
  const CooldownMs: nat := 60000

  function Pow2(k: nat): (p: nat)
    ensures p >= 1
  {
    if k == 0 then 1 else 2 * Pow2(k - 1)
  }

  /** `Math.min(1000 * Math.pow(2, n - 1), 30000)`, evaluated only after the
      counter has been incremented, so `n` is at least 1. */
  function Delay(n: nat): (d: nat)
    requires n >= 1
    ensures BaseDelayMs <= d <= MaxDelayMs
  {
    var raw := BaseDelayMs * Pow2(n - 1);
    if raw < MaxDelayMs then raw else MaxDelayMs
  }

  lemma {:induction false} Pow2Monotone(j: nat, k: nat)
    requires j <= k
    ensures Pow2(j) <= Pow2(k)
  {
    if j < k {
      Pow2Monotone(j, k - 1);
    }
  }

  /** Each further failure doubles the delay until it reaches the cap. */
  lemma DelayDoubles(n: nat)
    requires n >= 1
    ensures Delay(n + 1) == if 2 * Delay(n) < MaxDelayMs then 2 * Delay(n) else MaxDelayMs
  {
    assert Pow2(n) == 2 * Pow2(n - 1);
  }

  /** The delays grow with the attempt number. */
  lemma DelayMonotone(n: nat, m: nat)
    requires 1 <= n <= m
    ensures Delay(n) <= Delay(m)
  {
    Pow2Monotone(n - 1, m - 1);
  }

  /** The schedule 1000, 2000, 4000, 8000, 16000, then 30000 for every later attempt. */
  lemma DelaySchedule(n: nat)
    requires n >= 1
    ensures n <= 5 <==> Delay(n) < MaxDelayMs
    ensures n >= 6 ==> Delay(n) == MaxDelayMs
    ensures Delay(1) == 1000 && Delay(2) == 2000 && Delay(3) == 4000
    ensures Delay(4) == 8000 && Delay(5) == 16000 && Delay(6) == 30000
  {
    assert Pow2(5) == 32;
    if n >= 6 {
      Pow2Monotone(5, n - 1);
    } else {
      Pow2Monotone(n - 1, 4);
    }
  }
}

=== FILE: channel.dfy ===
/** The per-channel connection state machine of both client variants:
    `connect`, `reconnect`, and the socket's open and close handlers.
    Timers are explicit records the environment fires by id; nothing here
    measures time. The two variants differ only in their reconnection
    policy, which is a parameter. */
module Channel {
  import opened JsValues
  import opened Backoff

  /** The main client keeps retrying after a cooldown and honours normal
      close codes; the older variant gives up after the last attempt and
      reconnects on every close. */
  datatype Policy = Persistent | GiveUp

  /** The channel's current socket. `Closing` is a socket whose `close()`
      has been called but whose close event has not arrived yet. */
  datatype Socket = NoSocket | Connecting | Open | Closing | Closed

  /** What a timer does when it fires: call `connect`, or (after the 60 s
      cooldown) call `reconnect` again. */
  datatype Action = ConnectAgain | RetryLater

  datatype Timer = Timer(id: nat, delayMs: nat, action: Action)

  /** `attempts` is `reconnectAttempts[type]`, `tracked` the handle stored
      in `reconnectTimers[type]`, `pinging` whether the 30 s ping interval
      of the socket is running. */
  datatype ChannelState = ChannelState(
    attempts: nat,
    socket: Socket,
    pinging: bool,
    timers: seq<Timer>,
    tracked: Option<nat>,
    nextId: nat)

  /** Events the environment delivers to one channel. */
  datatype Event = SocketOpened | SocketClosed(code: int) | TimerFired(id: nat, constructorThrows: bool)

  /** The channel after an event, and whether reconnect listeners are called. */
  datatype Outcome = Outcome(next: ChannelState, notify: bool)

  const NormalClosure: int := 1000
  const GoingAway: int := 1001
  const AbnormalClosure: int := 1006

  const Fresh: ChannelState := ChannelState(0, NoSocket, false, [], None, 0)

  predicate Live(s: Socket)
  {
    s == Connecting || s == Open
  }

  predicate Down(s: Socket)
  {
    s == NoSocket || s == Closed
  }

  /** Close codes for which the main client does not reconnect. */
  predicate IsNormalClose(code: int)
  {
    code == NormalClosure || code == GoingAway
  }

  /** `setTimeout`: a new timer with a fresh id; a tracked timer replaces
      the handle in `reconnectTimers` (the previous one keeps running). */
  function Schedule(c: ChannelState, delayMs: nat, action: Action, track: bool): ChannelState
  {
    c.(timers := c.timers + [Timer(c.nextId, delayMs, action)],
       tracked := if track then Some(c.nextId) else c.tracked,
       nextId := c.nextId + 1)
  }

  /** The timers other than the one with the given id. */
  function Without(ts: seq<Timer>, id: nat): (r: seq<Timer>)
    ensures forall t :: t in r <==> t in ts && t.id != id
    ensures |r| <= |ts|
  {
    if |ts| == 0 then []
    else if ts[0].id == id then Without(ts[1..], id)
    else [ts[0]] + Without(ts[1..], id)
  }

  /** Removing the only timer leaves none. */
  lemma WithoutOnly(ts: seq<Timer>)
    requires |ts| == 1
    ensures Without(ts, ts[0].id) == []
  {
  }

  function FindTimer(ts: seq<Timer>, id: nat): (r: Option<Timer>)
    ensures r.Some? ==> r.value in ts && r.value.id == id
    ensures r.None? ==> forall t :: t in ts ==> t.id != id
  {
    if |ts| == 0 then None
    else if ts[0].id == id then Some(ts[0])
    else FindTimer(ts[1..], id)
  }

  /** `clearTimeout(reconnectTimers[type])`. */
  function CancelTracked(c: ChannelState): ChannelState
  {
    match c.tracked
    case None => c
    case Some(id) => c.(timers := Without(c.timers, id))
  }

  /** `reconnect(type, name)`: count the failure and schedule the next
      `connect` after the backoff delay. At the maximum the main client
      resets the counter and retries after the cooldown; the older variant
      schedules nothing. */
  function Reconnect(p: Policy, c: ChannelState): (r: ChannelState)
    ensures r.socket == c.socket && r.pinging == c.pinging
    ensures c.attempts < MaxAttempts ==>
              && r.attempts == c.attempts + 1
              && r.timers == c.timers + [Timer(c.nextId, Delay(c.attempts + 1), ConnectAgain)]
              && r.tracked == Some(c.nextId)
    ensures c.attempts >= MaxAttempts && p == Persistent ==>
              && r.attempts == 0
              && r.timers == c.timers + [Timer(c.nextId, CooldownMs, RetryLater)]
              && r.tracked == c.tracked
    ensures c.attempts >= MaxAttempts && p == GiveUp ==> r == c
  {
    if c.attempts >= MaxAttempts then
      match p
      case Persistent => Schedule(c.(attempts := 0), CooldownMs, RetryLater, false)
      case GiveUp => c
    else
      var n := c.attempts + 1;
      Schedule(c.(attempts := n), Delay(n), ConnectAgain, true)
  }

  /** `connect(type, name)`: close the current socket, clear the tracked
      timer, then open a new socket; a constructor that throws hands over
      to `reconnect`. */
  function Connect(p: Policy, c: ChannelState, constructorThrows: bool): (r: ChannelState)
    ensures !constructorThrows ==>
              && r.socket == Connecting && !r.pinging && r.attempts == c.attempts
              && (forall t :: t in r.timers <==> t in c.timers && Some(t.id) != c.tracked)
              && r.tracked == c.tracked && r.nextId == c.nextId
    ensures constructorThrows ==>
              && r.socket == (if Live(c.socket) then Closing else c.socket)
              && r == Reconnect(p, CancelTracked(c.(socket := r.socket)))
  {
    var closing := if Live(c.socket) then c.(socket := Closing) else c;
    var cleared := CancelTracked(closing);
    if constructorThrows then Reconnect(p, cleared)
    else cleared.(socket := Connecting, pinging := false)
  }

  /** What `start()` does to one channel through `connect`: a socket that
      opens cleanly is connecting with the tracked timer cleared; when the
      constructor throws, a live socket is closing and `reconnect` runs on
      the channel with its tracked timer cleared. The handle stored in
      `reconnectTimers` and the supply of fresh timer ids are untouched on
      success. */
  ghost predicate Started(p: Policy, before: ChannelState, after: ChannelState, throws: bool)
  {
    && (!throws ==>
          && after.socket == Connecting && !after.pinging && after.attempts == before.attempts
          && (forall t :: t in after.timers <==> t in before.timers && Some(t.id) != before.tracked)
          && after.tracked == before.tracked && after.nextId == before.nextId)
    && (throws ==>
          && after.socket == (if Live(before.socket) then Closing else before.socket)
          && after == Reconnect(p, CancelTracked(before.(socket := after.socket))))
  }

  lemma StartChannel(p: Policy, c: ChannelState, throws: bool)
    ensures Started(p, c, Connect(p, c, throws), throws)
  {
  }

  /** `ws.onopen`: reset the counter and start the ping interval. The main
      client calls its reconnect listeners when the counter is positive,
      but it tests the counter after resetting it. */
  function OnOpen(p: Policy, c: ChannelState): (o: Outcome)
    ensures o.next.attempts == 0 && o.next.socket == Open && o.next.pinging
    ensures o.next.timers == c.timers && o.next.tracked == c.tracked
    ensures !o.notify
  {
    var next := c.(attempts := 0, socket := Open, pinging := true);
    Outcome(next, p == Persistent && next.attempts > 0)
  }

  /** `ws.onclose`: stop the ping interval; reconnect unless the main
      client sees a normal close code. */
  function OnClose(p: Policy, c: ChannelState, code: int): (r: ChannelState)
    ensures r.socket == Closed && !r.pinging
    ensures p == Persistent && IsNormalClose(code) ==>
              r.timers == c.timers && r.attempts == c.attempts && r.tracked == c.tracked
    ensures (p == GiveUp || !IsNormalClose(code)) ==>
              r == Reconnect(p, c.(socket := Closed, pinging := false))
  {
    var down := c.(socket := Closed, pinging := false);
    match p
    case Persistent => if !IsNormalClose(code) then Reconnect(p, down) else down
    case GiveUp => Reconnect(p, down)
  }

  /** A pending timer fires; a timer that was cleared no longer fires. */
  function FireTimer(p: Policy, c: ChannelState, id: nat, constructorThrows: bool): (r: ChannelState)
    ensures (forall t :: t in c.timers ==> t.id != id) ==> r == c
    ensures FindTimer(c.timers, id).Some? ==>
              var rest := c.(timers := Without(c.timers, id));
              && (FindTimer(c.timers, id).value.action == ConnectAgain ==> r == Connect(p, rest, constructorThrows))
              && (FindTimer(c.timers, id).value.action == RetryLater ==> r == Reconnect(p, rest))
    ensures FindTimer(c.timers, id).Some? && FindTimer(c.timers, id).value.action == ConnectAgain
            && !constructorThrows ==>
              && r.socket == Connecting && r.attempts == c.attempts
              && forall t :: t in r.timers ==> t in c.timers && t.id != id
  {
    match FindTimer(c.timers, id)
    case None => c
    case Some(t) =>
      var rest := c.(timers := Without(c.timers, id));
      match t.action
      case ConnectAgain => Connect(p, rest, constructorThrows)
      case RetryLater => Reconnect(p, rest)
  }

  /** One event on one channel. Socket events only arrive for a socket in a
      state that can produce them. */
  function Step(p: Policy, c: ChannelState, e: Event): (o: Outcome)
    ensures !o.notify
    ensures e == SocketOpened && c.socket == Connecting ==> o == OnOpen(p, c)
    ensures e.SocketClosed? && (Live(c.socket) || c.socket == Closing) ==> o.next == OnClose(p, c, e.code)
    ensures e.TimerFired? ==> o.next == FireTimer(p, c, e.id, e.constructorThrows)
    ensures e == SocketOpened && c.socket != Connecting ==> o.next == c
    ensures e.SocketClosed? && Down(c.socket) ==> o.next == c
  {
    match e
    case SocketOpened =>
      if c.socket == Connecting then OnOpen(p, c) else Outcome(c, false)
    case SocketClosed(code) =>
      if Live(c.socket) || c.socket == Closing then Outcome(OnClose(p, c, code), false)
      else Outcome(c, false)
    case TimerFired(id, throws) => Outcome(FireTimer(p, c, id, throws), false)
  }

  /** The main client's `stop()` for one channel: close the socket, clear
      the tracked timer and forget the counter. The cooldown timer is not
      tracked and is not cleared. */
  function Stop(c: ChannelState): (r: ChannelState)
    ensures r.tracked.None? && r.attempts == 0 && !Live(r.socket)
    ensures Live(c.socket) || c.socket == Closing ==> r.socket == Closing
    ensures Down(c.socket) ==> r.socket == NoSocket
    ensures r.pinging == c.pinging && r.nextId == c.nextId
    ensures forall t :: t in r.timers <==> t in c.timers && Some(t.id) != c.tracked
  {
    c.(socket := if Live(c.socket) || c.socket == Closing then Closing else NoSocket,
       timers := CancelTracked(c).timers,
       tracked := None,
       attempts := 0)
  }
}

=== FILE: js_values.dfy ===
/** JavaScript value conventions the streaming client relies on: `parseFloat`,
    NaN, the `||` fallback on falsy values and `Math.floor` on a division. */
module JsValues {

  datatype Option<+T> = None | Some(value: T)

  /** A JavaScript number as the client sees it: NaN or a real value.
      Infinities are not modelled. */
  datatype Num = NaN | Real(v: real)

  /** A raw JSON field of a stream frame: `Absent` stands for the falsy
      non-numeric values (undefined, null, the empty string); `Present`
      carries what `parseFloat` makes of the field. */
  datatype RawField = Absent | Present(parsed: Num)

  /** `parseFloat(f)`: an absent field parses to NaN. */
  function ParseFloat(f: RawField): Num
  {
    match f
    case Absent => NaN
    case Present(n) => n
  }

  /** `parseFloat(f || 0)`: an absent field is replaced by 0 before parsing. */
  function ParseFloatOrZero(f: RawField): Num
  {
    match f
    case Absent => Real(0.0)
    case Present(n) => n
  }

  /** `isNaN(n) || n === 0`: the discard test for load-bearing fields. */
  predicate NaNOrZero(n: Num)
  {
    n.NaN? || n.v == 0.0
  }

  /** `n > 0`; every comparison with NaN is false. */
  predicate Positive(n: Num)
  {
    n.Real? && n.v > 0.0
  }

  /** `isNaN(n) ? fallback : n`. */
  function OrIfNaN(n: Num, fallback: real): real
  {
    if n.NaN? then fallback else n.v
  }

  /** `a || b` on an integer field: a missing field and 0 are both falsy. */
  function IntOr(a: Option<int>, b: int): int
  {
    if a.Some? && a.value != 0 then a.value else b
  }

  /** `Math.floor(t / d)` for a positive divisor. */
  function FloorDiv(t: int, d: int): (q: int)
    requires d > 0
    ensures q * d <= t < q * d + d
  {
    t / d
  }
}

=== FILE: legacy_client.dfy ===
/** The older client `futures-vue`: the same three channels under the
    give-up policy, frames forwarded without sanitizing or merging, and a
    `stop()` that does nothing. */
module LegacyClient {
  import opened JsValues
  import opened Records
  import opened Channel
  import opened Sanitize
  import opened OrderBook

  /** A ticker as the older client forwards it: fields may be NaN. */
  datatype RawTicker = RawTicker(price: Num, changePercent: Num, high: Num, low: Num, volume: Num)

  /** A trade as the older client forwards it. */
  datatype RawTrade = RawTrade(side: Side, price: Num, qty: Num, time: int)

  /** One `[price, qty]` pair of a forwarded order-book frame. */
  datatype RawPair = RawPair(price: Num, qty: Num)

  datatype PairView = PairView(bids: seq<RawPair>, asks: seq<RawPair>)

  datatype LegacyEmission =
    | TickerOut(ticker: RawTicker)
    | BookOut(view: PairView)
    | TradeOut(trade: RawTrade)

  datatype LegacyState = LegacyState(ticker: ChannelState, depth: ChannelState, trades: ChannelState, polls: nat)

  /** `Start` lists the channels whose socket constructor throws during
      `start()`. */
  datatype LegacyEvent =
    | Start(throwing: set<Kind>)
    | Stop
    | Socket(kind: Kind, event: Event)
    | TickerMessage(tickerFrame: Frame<TickerFields>)
    | DepthMessage(depthFrame: Frame<DepthFields>)
    | TradeMessage(tradeFrame: Frame<TradeFields>, now: int)

  datatype LegacyOutcome = LegacyOutcome(next: LegacyState, emitted: Option<LegacyEmission>)

  /** The ticker branch: every field goes through `parseFloat(x || 0)`. */
  function ForwardTicker(f: TickerFields): (r: RawTicker)
    ensures f.c.Absent? ==> r.price == Real(0.0)
    ensures f.c.Present? ==> r.price == ParseFloat(f.c)
    ensures f.P.Absent? ==> r.changePercent == Real(0.0)
    ensures f.P.Present? ==> r.changePercent == ParseFloat(f.P)
    ensures f.h.Absent? ==> r.high == Real(0.0)
    ensures f.h.Present? ==> r.high == ParseFloat(f.h)
    ensures f.l.Absent? ==> r.low == Real(0.0)
    ensures f.l.Present? ==> r.low == ParseFloat(f.l)
    ensures f.v.Absent? ==> r.volume == Real(0.0)
    ensures f.v.Present? ==> r.volume == ParseFloat(f.v)
  {
    RawTicker(ParseFloatOrZero(f.c), ParseFloatOrZero(f.P), ParseFloatOrZero(f.h),
              ParseFloatOrZero(f.l), ParseFloatOrZero(f.v))
  }

  /** Both sides of a depth frame parsed pair by pair, in frame order. */
  function ForwardLevels(ls: seq<RawLevel>): (r: seq<RawPair>)
    ensures |r| == |ls|
    ensures forall i :: 0 <= i < |ls| ==> r[i] == RawPair(ParseFloat(ls[i].p), ParseFloat(ls[i].q))
  {
    if |ls| == 0 then [] else [RawPair(ParseFloat(ls[0].p), ParseFloat(ls[0].q))] + ForwardLevels(ls[1..])
  }

  /** The trade branch: `parseFloat(x || 0)` on price and quantity, the
      buyer-is-maker flag as side, `data.T || Date.now()` as time. */
  function ForwardTrade(f: TradeFields, now: int): (r: RawTrade)
    ensures r.side == Sell <==> f.m
    ensures f.p.Absent? ==> r.price == Real(0.0)
    ensures f.p.Present? ==> r.price == ParseFloat(f.p)
    ensures f.q.Absent? ==> r.qty == Real(0.0)
    ensures f.q.Present? ==> r.qty == ParseFloat(f.q)
    ensures f.T.Some? && f.T.value != 0 ==> r.time == f.T.value
    ensures f.T.None? || f.T.value == 0 ==> r.time == now
  {
    RawTrade(if f.m then Sell else Buy, ParseFloatOrZero(f.p), ParseFloatOrZero(f.q), IntOr(f.T, now))
  }

  /** The kline branch: only closed klines are forwarded, fields as parsed. */
  function ForwardKline(f: KlineFields): (r: Option<Candle>)
    ensures r.Some? <==> f.k.Some? && f.k.value.x
    ensures r.Some? ==> r.value.time * 1000 <= f.k.value.t < r.value.time * 1000 + 1000
    ensures r.Some? ==> && r.value.open == ParseFloat(f.k.value.o) && r.value.high == ParseFloat(f.k.value.h)
                        && r.value.low == ParseFloat(f.k.value.l) && r.value.close == ParseFloat(f.k.value.c)
                        && r.value.volume == ParseFloat(f.k.value.v)
  {
    match f.k
    case Some(k) =>
      if k.x then Some(Candle(FloorDiv(k.t, 1000), ParseFloat(k.o), ParseFloat(k.h), ParseFloat(k.l),
                              ParseFloat(k.c), ParseFloat(k.v)))
      else None
    case None => None
  }

  function LegacyHandle(s: LegacyState, ev: LegacyEvent): (r: LegacyOutcome)
    ensures ev.Stop? ==> r == LegacyOutcome(s, None)
    ensures ev.TickerMessage? ==> (r.emitted.Some? <==> ev.tickerFrame.Payload?)
    ensures ev.DepthMessage? ==> (r.emitted.Some? <==> ev.depthFrame.Payload?)
    ensures ev.TradeMessage? ==> (r.emitted.Some? <==> ev.tradeFrame.Payload?)
    ensures ev.Socket? ==> r.emitted.None?
    ensures ev.Start? ==> r.next.polls == s.polls + 1 && r.emitted.None?
    ensures ev.Start? ==>
              && Started(GiveUp, s.ticker, r.next.ticker, TickerStream in ev.throwing)
              && Started(GiveUp, s.depth, r.next.depth, DepthStream in ev.throwing)
              && Started(GiveUp, s.trades, r.next.trades, TradeStream in ev.throwing)
    ensures ev.Socket? ==> r.next.polls == s.polls
    ensures ev.Socket? && ev.kind == TickerStream ==>
              r.next == s.(ticker := Step(GiveUp, s.ticker, ev.event).next)
    ensures ev.Socket? && ev.kind == DepthStream ==>
              r.next == s.(depth := Step(GiveUp, s.depth, ev.event).next)
    ensures ev.Socket? && ev.kind == TradeStream ==>
              r.next == s.(trades := Step(GiveUp, s.trades, ev.event).next)
    ensures !ev.Start? && !ev.Socket? ==> r.next == s
    ensures ev.TickerMessage? && ev.tickerFrame.Payload? ==>
              r.emitted == Some(TickerOut(ForwardTicker(ev.tickerFrame.body)))
    ensures ev.DepthMessage? && ev.depthFrame.Payload? ==>
              r.emitted == Some(BookOut(PairView(ForwardLevels(ev.depthFrame.body.b),
                                                 ForwardLevels(ev.depthFrame.body.a))))
    ensures ev.TradeMessage? && ev.tradeFrame.Payload? ==>
              r.emitted == Some(TradeOut(ForwardTrade(ev.tradeFrame.body, ev.now)))
  {
    match ev
    case Start(throwing) =>
      StartChannel(GiveUp, s.ticker, TickerStream in throwing);
      StartChannel(GiveUp, s.depth, DepthStream in throwing);
      StartChannel(GiveUp, s.trades, TradeStream in throwing);
      LegacyOutcome(s.(ticker := Connect(GiveUp, s.ticker, TickerStream in throwing),
                       depth := Connect(GiveUp, s.depth, DepthStream in throwing),
                       trades := Connect(GiveUp, s.trades, TradeStream in throwing),
                       polls := s.polls + 1), None)
    case Stop => LegacyOutcome(s, None)
    case Socket(k, e) =>
      var next := match k
        case TickerStream => s.(ticker := Step(GiveUp, s.ticker, e).next)
        case DepthStream => s.(depth := Step(GiveUp, s.depth, e).next)
        case TradeStream => s.(trades := Step(GiveUp, s.trades, e).next);
      LegacyOutcome(next, None)
    case TickerMessage(fr) =>
      LegacyOutcome(s, if fr.Payload? then Some(TickerOut(ForwardTicker(fr.body))) else None)
    case DepthMessage(fr) =>
      LegacyOutcome(s, if fr.Payload? then Some(BookOut(PairView(ForwardLevels(fr.body.b), ForwardLevels(fr.body.a))))
                       else None)
    case TradeMessage(fr, now) =>
      LegacyOutcome(s, if fr.Payload? then Some(TradeOut(ForwardTrade(fr.body, now))) else None)
  }

  /** Where the main client's ticker sanitizer keeps a frame whose fields
      are all present, the older client forwards the same numbers. */
  lemma ForwardTickerAgreesWithSanitizer(f: TickerFields)
    requires SanitizeTicker(f).Some?
    requires f.P.Present? && f.h.Present? && f.l.Present? && f.v.Present?
    requires !ParseFloat(f.P).NaN? && !ParseFloat(f.h).NaN? && !ParseFloat(f.l).NaN? && !ParseFloat(f.v).NaN?
    ensures var t := SanitizeTicker(f).value;
      ForwardTicker(f) == RawTicker(Real(t.price), Real(t.changePercent), Real(t.high), Real(t.low), Real(t.volume))
  {
  }

  /** A ticker frame without `c` is discarded by the main client but
      forwarded by the older one with price 0. */
  lemma MissingPriceForwardedAsZero(f: TickerFields)
    requires f.c.Absent?
    ensures SanitizeTicker(f).None?
    ensures ForwardTicker(f).price == Real(0.0)
  {
  }

  /** Forwarding keeps every pair, zeros and NaNs included: the pairs the
      main client would keep are exactly the forwarded pairs with positive
      price and quantity, in the same order. */
  lemma {:induction false} ForwardThenFilterIsValidLevels(ls: seq<RawLevel>)
    ensures ValidLevels(ls) == PositivePairs(ForwardLevels(ls))
    decreases |ls|
  {
    if |ls| > 0 {
      ForwardThenFilterIsValidLevels(ls[1..]);
      assert ForwardLevels(ls)[1..] == ForwardLevels(ls[1..]);
    }
  }

  /** The pairs with positive price and quantity, as levels. */
  function PositivePairs(ps: seq<RawPair>): seq<Level>
  {
    if |ps| == 0 then []
    else
      (if Positive(ps[0].price) && Positive(ps[0].qty) then [Level(ps[0].price.v, ps[0].qty.v)] else [])
      + PositivePairs(ps[1..])
  }

  /** The trade branch forwards a trade the main client would keep with
      the same side, price, quantity and time. */
  lemma ForwardTradeAgreesWithSanitizer(f: TradeFields, now: int)
    requires SanitizeTrade(f, now).Some?
    ensures var t := SanitizeTrade(f, now).value;
      ForwardTrade(f, now) == RawTrade(t.side, Real(t.price), Real(t.qty), t.time)
  {
  }

  /** Where the main client's kline sanitizer keeps a frame without NaN
      fields, the older client forwards the same candle. */
  lemma ForwardKlineAgreesWithSanitizer(f: KlineFields)
    requires SanitizeKline(f).Some?
    requires !ParseFloat(f.k.value.o).NaN? && !ParseFloat(f.k.value.h).NaN?
    requires !ParseFloat(f.k.value.l).NaN? && !ParseFloat(f.k.value.v).NaN?
    ensures ForwardKline(f) == SanitizeKline(f)
  {
  }

  /** `stop()` is a no-op: channels keep their sockets and timers, and any
      close that follows still reconnects below the maximum. */
  lemma StopChangesNothing(s: LegacyState, code: int)
    requires Live(s.ticker.socket) && s.ticker.attempts < Backoff.MaxAttempts
    ensures var t := LegacyHandle(s, Stop).next;
      && t == s
      && |Step(GiveUp, t.ticker, SocketClosed(code)).next.timers| == |s.ticker.timers| + 1
  {
  }

  /** Every `start()` adds a poll interval that nothing clears. */
  lemma {:induction false} PollsOnlyGrow(s: LegacyState, evs: seq<LegacyEvent>)
    ensures RunLegacy(s, evs).polls == s.polls + CountStarts(evs)
    decreases |evs|
  {
    if |evs| > 0 {
      PollsOnlyGrow(LegacyHandle(s, evs[0]).next, evs[1..]);
    }
  }

  function RunLegacy(s: LegacyState, evs: seq<LegacyEvent>): LegacyState
    decreases |evs|
  {
    if |evs| == 0 then s else RunLegacy(LegacyHandle(s, evs[0]).next, evs[1..])
  }

  function CountStarts(evs: seq<LegacyEvent>): nat
    decreases |evs|
  {
    if |evs| == 0 then 0 else (if evs[0].Start? then 1 else 0) + CountStarts(evs[1..])
  }
}

=== FILE: legacy_supervisor.dfy ===
/** Properties of the older client's reconnection policy: the same backoff,
    a reconnect after every close whatever its code, and a permanent stop
    once the counter has reached its maximum. */
module LegacySupervisor {
  import opened JsValues
  import opened Backoff
  import opened Channel

  /** The states a channel of the older client reaches from a fresh
      `connect` through socket and timer events: as for the main client,
      except that a pending timer always reconnects and a dead channel may
      have nothing pending. */
  ghost predicate Steady(c: ChannelState)
  {
    && c.attempts <= MaxAttempts
    && (c.pinging <==> c.socket == Open)
    && ((Live(c.socket) && c.timers == []) || (Down(c.socket) && |c.timers| <= 1))
    && (|c.timers| == 1 ==>
          && c.attempts >= 1
          && c.timers[0].delayMs == Delay(c.attempts)
          && c.timers[0].action == ConnectAgain)
  }

  ghost predicate AwaitingRetry(c: ChannelState)
  {
    Steady(c) && Down(c.socket) && |c.timers| == 1
  }

  /** A channel that is down with nothing pending. */
  predicate Dark(c: ChannelState)
  {
    Down(c.socket) && c.timers == []
  }

  lemma StepKeepsSteady(c: ChannelState, e: Event)
    requires Steady(c)
    ensures Steady(Step(GiveUp, c, e).next)
  {
    match e
    case SocketOpened =>
    case SocketClosed(code) =>
    case TimerFired(id, throws) =>
      match FindTimer(c.timers, id)
      case None =>
      case Some(t) =>
        assert c.timers == [t];
        WithoutOnly(c.timers);
  }

  /** Every close, whatever its code, stops the ping interval and calls
      `reconnect`: below the maximum that schedules the next `connect`. */
  lemma EveryCloseReconnects(c: ChannelState, code: int)
    requires Steady(c) && Live(c.socket) && c.attempts < MaxAttempts
    ensures var r := Step(GiveUp, c, SocketClosed(code)).next;
      && AwaitingRetry(r) && !r.pinging
      && r.attempts == c.attempts + 1
      && r.timers[0].delayMs == Delay(c.attempts + 1)
  {
  }

  /** At the maximum a close schedules nothing and the counter stays put. */
  lemma CloseAtMaximumGivesUp(c: ChannelState, code: int)
    requires Steady(c) && Live(c.socket) && c.attempts == MaxAttempts
    ensures var r := Step(GiveUp, c, SocketClosed(code)).next;
      Dark(r) && r.attempts == MaxAttempts
  {
  }

  /** A dark channel stays dark: no event changes it again. */
  lemma DarkIsPermanent(c: ChannelState, e: Event)
    requires Dark(c)
    ensures Step(GiveUp, c, e).next == c
  {
  }

  /** One failed retry of the older client: the pending `connect` opens a
      socket that closes before it opens. */
  function FailRound(c: ChannelState): (r: ChannelState)
    requires AwaitingRetry(c)
    ensures c.attempts < MaxAttempts ==>
              AwaitingRetry(r) && r.attempts == c.attempts + 1
    ensures c.attempts == MaxAttempts ==> Dark(r) && r.attempts == MaxAttempts
  {
    var fire := TimerFired(c.timers[0].id, false);
    StepKeepsSteady(c, fire);
    WithoutOnly(c.timers);
    var fired := Step(GiveUp, c, fire).next;
    StepKeepsSteady(fired, SocketClosed(AbnormalClosure));
    Step(GiveUp, fired, SocketClosed(AbnormalClosure)).next
  }

  /** The delays of the retries still to come when every retry fails. */
  function DelaysUntilGivingUp(c: ChannelState): (ds: seq<nat>)
    requires AwaitingRetry(c)
    ensures |ds| == MaxAttempts + 1 - c.attempts
    decreases MaxAttempts - c.attempts
  {
    var r := FailRound(c);
    [c.timers[0].delayMs] + (if c.attempts == MaxAttempts then [] else DelaysUntilGivingUp(r))
  }

  /** The retries still to come follow the backoff up to the tenth attempt. */
  lemma {:induction false} DelaysUntilGivingUpAt(c: ChannelState, i: nat)
    requires AwaitingRetry(c) && i < MaxAttempts + 1 - c.attempts
    ensures DelaysUntilGivingUp(c)[i] == Delay(c.attempts + i)
    decreases i
  {
    if i > 0 {
      var r := FailRound(c);
      assert DelaysUntilGivingUp(c)[i] == DelaysUntilGivingUp(r)[i - 1];
      DelaysUntilGivingUpAt(r, i - 1);
    }
  }

  /** An open channel of the older client that keeps failing is retried ten
      times, after 1000, 2000, 4000, 8000, 16000 ms and five times after
      30000 ms, and never again. */
  lemma FailureDelaySequence(c: ChannelState, code: int)
    requires Steady(c) && c.socket == Open && c.attempts == 0
    ensures var r := Step(GiveUp, c, SocketClosed(code)).next;
      && AwaitingRetry(r)
      && DelaysUntilGivingUp(r) == [1000, 2000, 4000, 8000, 16000, 30000, 30000, 30000, 30000, 30000]
  {
    var r := Step(GiveUp, c, SocketClosed(code)).next;
    assert r.attempts == 1;
    var ds := DelaysUntilGivingUp(r);
    forall i | 0 <= i < 10
      ensures ds[i] == [1000, 2000, 4000, 8000, 16000, 30000, 30000, 30000, 30000, 30000][i]
    {
      DelaysUntilGivingUpAt(r, i);
      DelaySchedule(i + 1);
    }
  }
}

=== FILE: market_store.dfy ===
/** The market store of the main application: ticker fields, both book
    sides, the trade tape capped at 500 entries with the newest first, the
    candle series, and the subscriptions `connectRealtime` installs. */
module MarketStore {
  import opened JsValues
  import opened Records
  import StreamClient

  const TapeLimit: nat := 500
  const SeriesLimit: nat := 500

  datatype Store = Store(
    lastPrice: Num,
    priceChangePercent: Num,
    high24h: Num,
    low24h: Num,
    volume24h: Num,
    bids: seq<Level>,
    asks: seq<Level>,
    trades: seq<Trade>,
    candles: seq<Candle>,
    connected: bool)

  const InitialStore: Store :=
    Store(Real(68500.0), Real(0.0), Real(68600.0), Real(66000.0), Real(0.0), [], [], [], [], false)

  /** The argument of `setTicker`; `None` marks a field whose value is not
      of type number (NaN is a number and is stored). */
  datatype TickerPatch = TickerPatch(
    price: Num, changePercent: Option<Num>, high: Option<Num>, low: Option<Num>, volume: Option<Num>)

  /** The patch a ticker of the streaming client makes. */
  function PatchOf(t: Ticker): TickerPatch
  {
    TickerPatch(Real(t.price), Some(Real(t.changePercent)), Some(Real(t.high)), Some(Real(t.low)),
                Some(Real(t.volume)))
  }

  function Keep(current: Num, supplied: Option<Num>): Num
  {
    match supplied
    case Some(n) => n
    case None => current
  }

  function SetTicker(s: Store, p: TickerPatch): (r: Store)
    ensures r.lastPrice == p.price
    ensures p.changePercent.Some? ==> r.priceChangePercent == p.changePercent.value
    ensures p.changePercent.None? ==> r.priceChangePercent == s.priceChangePercent
    ensures p.high.Some? ==> r.high24h == p.high.value
    ensures p.high.None? ==> r.high24h == s.high24h
    ensures p.low.Some? ==> r.low24h == p.low.value
    ensures p.low.None? ==> r.low24h == s.low24h
    ensures p.volume.Some? ==> r.volume24h == p.volume.value
    ensures p.volume.None? ==> r.volume24h == s.volume24h
    ensures r.bids == s.bids && r.asks == s.asks && r.trades == s.trades && r.candles == s.candles
    ensures r.connected == s.connected
  {
    s.(lastPrice := p.price,
       priceChangePercent := Keep(s.priceChangePercent, p.changePercent),
       high24h := Keep(s.high24h, p.high),
       low24h := Keep(s.low24h, p.low),
       volume24h := Keep(s.volume24h, p.volume))
  }

  /** Applying the same ticker twice is the same as applying it once. */
  lemma SetTickerIdempotent(s: Store, p: TickerPatch)
    ensures SetTicker(SetTicker(s, p), p) == SetTicker(s, p)
  {
  }

  /** A complete patch overrides everything an earlier one wrote. */
  lemma SetTickerLastWins(s: Store, p: TickerPatch, q: TickerPatch)
    requires q.changePercent.Some? && q.high.Some? && q.low.Some? && q.volume.Some?
    ensures SetTicker(SetTicker(s, p), q) == SetTicker(s, q)
  {
  }

  /** The store's ticker fields read back as a streaming-client ticker. */
  function TickerOf(s: Store): Option<Ticker>
  {
    if s.lastPrice.Real? && s.priceChangePercent.Real? && s.high24h.Real? && s.low24h.Real?
       && s.volume24h.Real?
    then Some(Ticker(s.lastPrice.v, s.priceChangePercent.v, s.high24h.v, s.low24h.v, s.volume24h.v))
    else None
  }

  /** Storing a client ticker and reading it back gives the same ticker. */
  lemma TickerRoundTrip(s: Store, t: Ticker)
    ensures TickerOf(SetTicker(s, PatchOf(t))) == Some(t)
  {
  }

  function SetOrderBook(s: Store, v: BookView): (r: Store)
    ensures r.bids == v.bids && r.asks == v.asks
    ensures r.(bids := s.bids, asks := s.asks) == s
  {
    s.(bids := v.bids, asks := v.asks)
  }

  /** The first `TapeLimit` trades of a tape. */
  function Cap(xs: seq<Trade>): (r: seq<Trade>)
    ensures |r| <= TapeLimit
    ensures |r| == if |xs| > TapeLimit then TapeLimit else |xs|
    ensures forall i :: 0 <= i < |r| ==> r[i] == xs[i]
  {
    if |xs| > TapeLimit then xs[..TapeLimit] else xs
  }

  /** `pushTrade`: `unshift`, then truncate to 500. */
  function PushTrade(tape: seq<Trade>, t: Trade): (r: seq<Trade>)
    ensures |r| == if |tape| < TapeLimit then |tape| + 1 else TapeLimit
    ensures r[0] == t
    ensures forall i :: 1 <= i < |r| ==> r[i] == tape[i - 1]
  {
    Cap([t] + tape)
  }

  /** `trades.forEach(t => pushTrade(t))`. */
  function PushAll(tape: seq<Trade>, ts: seq<Trade>): seq<Trade>
    decreases |ts|
  {
    if |ts| == 0 then tape else PushAll(PushTrade(tape, ts[0]), ts[1..])
  }

  function Reverse<T>(xs: seq<T>): (r: seq<T>)
    ensures |r| == |xs|
    ensures forall i :: 0 <= i < |xs| ==> r[i] == xs[|xs| - 1 - i]
  {
    if |xs| == 0 then [] else Reverse(xs[1..]) + [xs[0]]
  }

  /** Truncating twice is truncating once. */
  lemma CapOfCapped(a: seq<Trade>, b: seq<Trade>)
    ensures Cap(a + Cap(b)) == Cap(a + b)
  {
    var l := Cap(a + Cap(b));
    var m := Cap(a + b);
    assert |l| == |m|;
    forall i | 0 <= i < |l|
      ensures l[i] == m[i]
    {
      if i >= |a| {
        assert (a + Cap(b))[i] == Cap(b)[i - |a|];
      }
    }
  }

  /** Pushing trades one by one leaves the newest first: the tape is the
      batch in reverse order in front of the old tape, cut at 500. */
  lemma {:induction false} PushAllIsReversedPrefix(tape: seq<Trade>, ts: seq<Trade>)
    requires |tape| <= TapeLimit
    ensures PushAll(tape, ts) == Cap(Reverse(ts) + tape)
    decreases |ts|
  {
    if |ts| == 0 {
      assert Reverse(ts) + tape == tape;
    } else {
      var rest := ts[1..];
      PushAllIsReversedPrefix(PushTrade(tape, ts[0]), rest);
      CapOfCapped(Reverse(rest), [ts[0]] + tape);
      assert Reverse(ts) == Reverse(rest) + [ts[0]];
      assert Reverse(rest) + ([ts[0]] + tape) == Reverse(ts) + tape;
    }
  }

  /** The argument of `updateLastCandle`; `None` marks a missing key. */
  datatype CandlePatch = CandlePatch(
    time: Option<int>, open: Option<Num>, high: Option<Num>, low: Option<Num>, close: Option<Num>,
    volume: Option<Num>)

  /** The patch a whole candle makes: every key is present. */
  function FullPatch(c: Candle): CandlePatch
  {
    CandlePatch(Some(c.time), Some(c.open), Some(c.high), Some(c.low), Some(c.close), Some(c.volume))
  }

  /** `Object.assign(candle, patch)`: every key the patch carries is
      copied, every other key keeps the candle's value. */
  function Assign(c: Candle, p: CandlePatch): (r: Candle)
    ensures r.time == (if p.time.Some? then p.time.value else c.time)
    ensures p.open.Some? ==> r.open == p.open.value
    ensures p.open.None? ==> r.open == c.open
    ensures p.high.Some? ==> r.high == p.high.value
    ensures p.high.None? ==> r.high == c.high
    ensures p.low.Some? ==> r.low == p.low.value
    ensures p.low.None? ==> r.low == c.low
    ensures p.close.Some? ==> r.close == p.close.value
    ensures p.close.None? ==> r.close == c.close
    ensures p.volume.Some? ==> r.volume == p.volume.value
    ensures p.volume.None? ==> r.volume == c.volume
  {
    Candle(match p.time case Some(t) => t case None => c.time,
           Keep(c.open, p.open), Keep(c.high, p.high), Keep(c.low, p.low), Keep(c.close, p.close),
           Keep(c.volume, p.volume))
  }

  function UpdateLastCandle(cs: seq<Candle>, p: CandlePatch): (r: seq<Candle>)
    ensures |r| == |cs|
    ensures |cs| == 0 ==> r == cs
    ensures |cs| > 0 ==> r[..|cs| - 1] == cs[..|cs| - 1]
    ensures |cs| > 0 ==> r[|r| - 1] == Assign(cs[|cs| - 1], p)
  {
    if |cs| == 0 then cs else cs[..|cs| - 1] + [Assign(cs[|cs| - 1], p)]
  }

  /** Applying the same patch twice is the same as applying it once. */
  lemma UpdateLastCandleIdempotent(cs: seq<Candle>, p: CandlePatch)
    ensures UpdateLastCandle(UpdateLastCandle(cs, p), p) == UpdateLastCandle(cs, p)
  {
  }

  /** A whole candle as patch replaces the last candle. */
  lemma FullPatchReplaces(cs: seq<Candle>, c: Candle)
    requires |cs| > 0
    ensures UpdateLastCandle(cs, FullPatch(c)) == cs[..|cs| - 1] + [c]
  {
  }

  /** The candle-update subscriber: a candle without a positive close is
      ignored, one for the last candle's time merges into it, any other is
      appended and the oldest dropped beyond 500. */
  function ApplyCandleUpdate(cs: seq<Candle>, c: Candle): (r: seq<Candle>)
    ensures !Positive(c.close) ==> r == cs
    ensures Positive(c.close) ==> |r| > 0 && r[|r| - 1] == c
    ensures Positive(c.close) && |cs| > 0 && cs[|cs| - 1].time == c.time ==>
              |r| == |cs| && r[..|r| - 1] == cs[..|cs| - 1]
    ensures Positive(c.close) && (|cs| == 0 || cs[|cs| - 1].time != c.time) ==>
              r == if |cs| < SeriesLimit then cs + [c] else cs[1..] + [c]
    ensures |cs| <= SeriesLimit ==> |r| <= SeriesLimit
  {
    if !Positive(c.close) then cs
    else if |cs| > 0 && cs[|cs| - 1].time == c.time then
      FullPatchReplaces(cs, c);
      UpdateLastCandle(cs, FullPatch(c))
    else
      var appended := cs + [c];
      if |appended| > SeriesLimit then
        assert appended[1..] == cs[1..] + [c];
        appended[1..]
      else appended
  }

  predicate IncreasingTimes(cs: seq<Candle>)
  {
    forall i, j :: 0 <= i < j < |cs| ==> cs[i].time < cs[j].time
  }

  /** An update no older than the last candle keeps candle times strictly
      increasing. */
  lemma CandleUpdateKeepsOrder(cs: seq<Candle>, c: Candle)
    requires IncreasingTimes(cs)
    requires |cs| == 0 || cs[|cs| - 1].time <= c.time
    ensures IncreasingTimes(ApplyCandleUpdate(cs, c))
  {
    var r := ApplyCandleUpdate(cs, c);
    if Positive(c.close) {
      if |cs| > 0 && cs[|cs| - 1].time == c.time {
        assert r == cs[..|cs| - 1] + [c];
      }
    }
  }

  /** An update older than the last candle is appended after it: nothing
      keeps the series in time order. */
  lemma OlderCandleIsAppendedOutOfOrder()
    ensures var cs := [Candle(120, Real(1.0), Real(1.0), Real(1.0), Real(1.0), Real(0.0))];
      var c := Candle(60, Real(2.0), Real(2.0), Real(2.0), Real(2.0), Real(0.0));
      var r := ApplyCandleUpdate(cs, c);
      IncreasingTimes(cs) && r == cs + [c] && !IncreasingTimes(r)
  {
    var cs := [Candle(120, Real(1.0), Real(1.0), Real(1.0), Real(1.0), Real(0.0))];
    var c := Candle(60, Real(2.0), Real(2.0), Real(2.0), Real(2.0), Real(0.0));
    var r := ApplyCandleUpdate(cs, c);
    assert r[0].time > r[1].time;
  }

  /** What the subscribers `connectRealtime` installs do with one emission
      of the streaming client. Reconnect notifications lead only to REST
      reloads, which are not part of this model. */
  function Receive(s: Store, e: StreamClient.Emission): (r: Store)
    ensures e.TickerUpdate? ==>
              (if e.ticker.price > 0.0
               then && TickerOf(r) == Some(e.ticker)
                    && r.bids == s.bids && r.asks == s.asks && r.trades == s.trades
               else r == s)
    ensures e.BookUpdate? ==>
              (if |e.view.bids| > 0 || |e.view.asks| > 0
               then r.bids == e.view.bids && r.asks == e.view.asks && r.(bids := s.bids, asks := s.asks) == s
               else r == s)
    ensures e.TradeUpdate? ==>
              (if e.trade.price > 0.0 && e.trade.qty > 0.0
               then && |r.trades| == (if |s.trades| < TapeLimit then |s.trades| + 1 else TapeLimit)
                    && r.trades[0] == e.trade
                    && (forall i :: 1 <= i < |r.trades| ==> r.trades[i] == s.trades[i - 1])
                    && r.(trades := s.trades) == s
               else r == s)
    ensures e.Reconnected? ==> r == s
    ensures r.candles == s.candles && r.connected == s.connected
  {
    match e
    case TickerUpdate(t) => if t.price > 0.0 then SetTicker(s, PatchOf(t)) else s
    case BookUpdate(v) => if |v.bids| > 0 || |v.asks| > 0 then SetOrderBook(s, v) else s
    case TradeUpdate(t) =>
      if t.price > 0.0 && t.qty > 0.0 then
        s.(trades := PushTrade(s.trades, t))
      else s
    case Reconnected(_) => s
  }

  /** `connectRealtime`: the first call marks the store connected and
      starts the client; later calls return at once. */
  function ConnectRealtime(s: Store, cl: StreamClient.Client, throwing: set<Kind>): (r: (Store, StreamClient.Client))
    ensures s.connected ==> r == (s, cl)
    ensures !s.connected ==> r.0 == s.(connected := true)
    ensures !s.connected ==> r.1.polls == cl.polls + 1 && r.1.pollTracked
    ensures !s.connected ==> r.1 == StreamClient.StartAll(cl, throwing)
  {
    if s.connected then (s, cl)
    else (s.(connected := true), StreamClient.Handle(cl, StreamClient.Start(throwing)).next)
  }

  /** A second `connectRealtime` changes nothing, so the client is started
      once however often the store connects. */
  lemma ConnectRealtimeIdempotent(s: Store, cl: StreamClient.Client, first: set<Kind>, second: set<Kind>)
    ensures var once := ConnectRealtime(s, cl, first);
      ConnectRealtime(once.0, once.1, second) == once
  {
  }
}

=== FILE: order_book.dfy ===
/** The main client's order-book reconstructor: a sequence cursor that
    discards stale frames, a merge of the positive levels of each frame into
    the current book, and a depth-limited re-sort. */
module OrderBook {
  import opened JsValues
  import opened Records

  /** Levels kept per side. */
  const Depth: nat := 20

  datatype BookSide = BidSide | AskSide

  /** `lastUpdateId`: `null` until the first frame after an open; afterwards
      the id of the last accepted frame, which may be `undefined`. */
  datatype Cursor = Unset | Seen(id: Option<int>)

  /** The client-side snapshot and its cursor. */
  datatype Book = Book(bids: seq<Level>, asks: seq<Level>, cursor: Cursor)

  /** One `[price, qty]` pair of a depth frame. */
  datatype RawLevel = RawLevel(p: RawField, q: RawField)

  /** The fields of a depth frame the client reads; a missing `b` or `a`
      is the empty sequence. */
  datatype DepthFields = DepthFields(u: Option<int>, lastUpdateId: Option<int>, b: seq<RawLevel>, a: seq<RawLevel>)

  /** The book after a frame, and the view published to subscribers, if any. */
  datatype DiffOutcome = DiffOutcome(book: Book, emitted: Option<BookView>)

  /** The book an open of the depth channel starts from. */
  const EmptyBook: Book := Book([], [], Unset)

  function Min(a: nat, b: nat): nat
  {
    if a <= b then a else b
  }

  /** Whether price `p` is listed before price `q`: bids descending, asks ascending. */
  predicate Before(side: BookSide, p: real, q: real)
  {
    if side == BidSide then p > q else p < q
  }

  /** Strictly ordered by price, so no price repeats. */
  predicate Ordered(side: BookSide, s: seq<Level>)
  {
    forall i, j :: 0 <= i < j < |s| ==> Before(side, s[i].price, s[j].price)
  }

  predicate AllPositive(s: seq<Level>)
  {
    forall i :: 0 <= i < |s| ==> s[i].price > 0.0 && s[i].qty > 0.0
  }

  function Prices(s: seq<Level>): set<real>
  {
    set i | 0 <= i < |s| :: s[i].price
  }

  /** A JavaScript `Map` built by `set(price, qty)` for each level in turn:
      a later level for the same price overrides an earlier one. */
  function MergeMap(m: map<real, real>, ls: seq<Level>): map<real, real>
    decreases |ls|
  {
    if |ls| == 0 then m else MergeMap(m[ls[0].price := ls[0].qty], ls[1..])
  }

  /** The map a listing stands for, the first level of a price winning. */
  function ToMap(s: seq<Level>): map<real, real>
  {
    if |s| == 0 then map[] else ToMap(s[1..])[s[0].price := s[0].qty]
  }

  /** `s` lists the best `Depth` entries of `m` in order: what sorting the
      map's entries and slicing the first twenty produces. */
  ghost predicate IsTopLevels(side: BookSide, s: seq<Level>, m: map<real, real>)
  {
    && Ordered(side, s)
    && |s| == Min(Depth, |m|)
    && (forall i :: 0 <= i < |s| ==> s[i].price in m && m[s[i].price] == s[i].qty)
    && (forall p :: p in m && p !in Prices(s) ==>
          forall i :: 0 <= i < |s| ==> Before(side, s[i].price, p))
  }

  /** A book the client can hold: each side ordered, within depth, and
      made of positive levels. */
  ghost predicate WellFormed(b: Book)
  {
    && Ordered(BidSide, b.bids) && Ordered(AskSide, b.asks)
    && |b.bids| <= Depth && |b.asks| <= Depth
    && AllPositive(b.bids) && AllPositive(b.asks)
  }

  lemma {:induction false} ToMapKeys(s: seq<Level>)
    ensures ToMap(s).Keys == Prices(s)
  {
    if |s| > 0 {
      ToMapKeys(s[1..]);
      assert Prices(s) == Prices(s[1..]) + {s[0].price} by {
        forall p | p in Prices(s) ensures p in Prices(s[1..]) + {s[0].price} {
          var i :| 0 <= i < |s| && s[i].price == p;
          if i > 0 { assert s[1..][i - 1].price == p; }
        }
        forall p | p in Prices(s[1..]) ensures p in Prices(s) {
          var i :| 0 <= i < |s[1..]| && s[1..][i].price == p;
          assert s[i + 1].price == p;
        }
      }
    }
  }

  /** In an ordered listing every level is the map's entry for its price,
      and the map has as many entries as the listing has levels. */
  lemma {:induction false} ToMapOfOrdered(side: BookSide, s: seq<Level>)
    requires Ordered(side, s)
    ensures forall i :: 0 <= i < |s| ==> s[i].price in ToMap(s) && ToMap(s)[s[i].price] == s[i].qty
    ensures |ToMap(s)| == |s|
  {
    if |s| > 0 {
      ToMapOfOrdered(side, s[1..]);
      ToMapKeys(s[1..]);
      assert s[0].price !in Prices(s[1..]) by {
        if s[0].price in Prices(s[1..]) {
          var i :| 0 <= i < |s[1..]| && s[1..][i].price == s[0].price;
        }
      }
      forall i | 0 <= i < |s|
        ensures s[i].price in ToMap(s) && ToMap(s)[s[i].price] == s[i].qty
      {
        if i > 0 {
          assert s[1..][i - 1] == s[i];
          assert Before(side, s[0].price, s[i].price);
        }
      }
    }
  }

  /** Insert a level at its place, replacing the level with the same price. */
  function Insert(side: BookSide, s: seq<Level>, l: Level): (r: seq<Level>)
    requires Ordered(side, s)
    ensures Ordered(side, r)
    ensures ToMap(r) == ToMap(s)[l.price := l.qty]
    ensures forall x :: x in r ==> x in s || x == l
  {
    if |s| == 0 then [l]
    else if s[0].price == l.price then [l] + s[1..]
    else if Before(side, l.price, s[0].price) then
      assert forall j :: 0 <= j < |s| ==> Before(side, l.price, s[j].price);
      [l] + s
    else
      var rest := Insert(side, s[1..], l);
      assert forall x :: x in rest ==> Before(side, s[0].price, x.price) by {
        forall x | x in rest ensures Before(side, s[0].price, x.price) {
          if x != l {
            var j :| 0 <= j < |s[1..]| && s[1..][j] == x;
            assert s[j + 1] == x;
          }
        }
      }
      var r := [s[0]] + rest;
      assert ToMap(r) == ToMap(rest)[s[0].price := s[0].qty] by {
        assert r[1..] == rest;
      }
      r
  }

  /** Upsert the levels one after another, as `Map.set` does. */
  function UpsertAll(side: BookSide, s: seq<Level>, ls: seq<Level>): (r: seq<Level>)
    requires Ordered(side, s)
    ensures Ordered(side, r)
    ensures ToMap(r) == MergeMap(ToMap(s), ls)
    ensures forall x :: x in r ==> x in s || x in ls
    decreases |ls|
  {
    if |ls| == 0 then s
    else
      var r := UpsertAll(side, Insert(side, s, ls[0]), ls[1..]);
      assert forall x :: x in ls[1..] ==> x in ls;
      r
  }

  /** The first `Depth` levels of an ordered listing are the best entries
      of the map it stands for. */
  lemma TopOfOrdered(side: BookSide, full: seq<Level>)
    requires Ordered(side, full)
    ensures IsTopLevels(side, full[..Min(Depth, |full|)], ToMap(full))
  {
    var r := full[..Min(Depth, |full|)];
    var m := ToMap(full);
    ToMapOfOrdered(side, full);
    ToMapKeys(full);
    assert forall k :: 0 <= k < |r| ==> full[k].price in Prices(r) by {
      forall k | 0 <= k < |r| ensures full[k].price in Prices(r) {
        assert r[k] == full[k];
      }
    }
    forall p, i | p in m && p !in Prices(r) && 0 <= i < |r|
      ensures Before(side, r[i].price, p)
    {
      var j :| 0 <= j < |full| && full[j].price == p;
      assert j >= |r|;
      assert Before(side, full[i].price, full[j].price);
    }
  }

  /** The new side after a frame: the old levels and the frame's levels
      merged into one map, sorted, and cut to `Depth`. */
  function MergeSide(side: BookSide, current: seq<Level>, levels: seq<Level>): (r: seq<Level>)
    ensures IsTopLevels(side, r, MergeMap(map[], current + levels))
    ensures AllPositive(current) && AllPositive(levels) ==> AllPositive(r)
  {
    var full := UpsertAll(side, [], current + levels);
    TopOfOrdered(side, full);
    PositiveKept(current + levels, full);
    full[..Min(Depth, |full|)]
  }

  lemma PositiveKept(src: seq<Level>, full: seq<Level>)
    requires forall x :: x in full ==> x in [] || x in src
    ensures AllPositive(src) ==> AllPositive(full[..Min(Depth, |full|)])
  {
    if AllPositive(src) {
      forall i | 0 <= i < Min(Depth, |full|)
        ensures full[i].price > 0.0 && full[i].qty > 0.0
      {
        assert full[i] in full;
      }
    }
  }

  /** A level survives the filter when both its price and quantity parse to
      positive numbers. */
  predicate Usable(rl: RawLevel)
  {
    Positive(ParseFloat(rl.p)) && Positive(ParseFloat(rl.q))
  }

  function LevelOf(rl: RawLevel): Level
    requires Usable(rl)
  {
    Level(ParseFloat(rl.p).v, ParseFloat(rl.q).v)
  }

  /** Parse each pair and keep the positive ones, in frame order. */
  function ValidLevels(raw: seq<RawLevel>): (r: seq<Level>)
    ensures AllPositive(r)
    ensures |r| == 0 <==> forall i :: 0 <= i < |raw| ==> !Usable(raw[i])
    ensures forall i :: 0 <= i < |raw| && Usable(raw[i]) ==> LevelOf(raw[i]) in r
    ensures forall x :: x in r ==> exists i :: 0 <= i < |raw| && Usable(raw[i]) && LevelOf(raw[i]) == x
  {
    if |raw| == 0 then []
    else
      var rest := ValidLevels(raw[1..]);
      assert forall i :: 1 <= i < |raw| ==> raw[i] == raw[1..][i - 1];
      if Usable(raw[0]) then [LevelOf(raw[0])] + rest else rest
  }

  /** `data.u || data.lastUpdateId`: a zero or missing `u` falls back to
      `lastUpdateId`, which may itself be missing. */
  function UpdateId(f: DepthFields): (r: Option<int>)
    ensures f.u.Some? && f.u.value != 0 ==> r == f.u
    ensures f.u.None? || f.u.value == 0 ==> r == f.lastUpdateId
    ensures f.lastUpdateId.Some? ==> r == Some(IntOr(f.u, f.lastUpdateId.value))
  {
    if f.u.Some? && f.u.value != 0 then f.u else f.lastUpdateId
  }

  /** `updateId < lastUpdateId` once the cursor is set; a comparison with
      `undefined` is false. */
  function IsStale(cursor: Cursor, id: Option<int>): (stale: bool)
    ensures cursor.Unset? || id.None? ==> !stale
    ensures cursor.Seen? && cursor.id.None? ==> !stale
    ensures cursor.Seen? && cursor.id.Some? && id.Some? ==> (stale <==> id.value < cursor.id.value)
  {
    cursor.Seen? && cursor.id.Some? && id.Some? && id.value < cursor.id.value
  }

  /** The `orderbook` branch of `handleMessage`. */
  function ApplyDiff(b: Book, f: DepthFields): (r: DiffOutcome)
    ensures IsStale(b.cursor, UpdateId(f)) ==> r.book == b && r.emitted.None?
    ensures !IsStale(b.cursor, UpdateId(f)) ==> r.book.cursor == Seen(UpdateId(f))
    ensures !IsStale(b.cursor, UpdateId(f)) && |ValidLevels(f.b)| == 0 && |ValidLevels(f.a)| == 0 ==>
              r.book.bids == b.bids && r.book.asks == b.asks && r.emitted.None?
    ensures r.emitted.Some? <==>
              !IsStale(b.cursor, UpdateId(f)) && (|ValidLevels(f.b)| > 0 || |ValidLevels(f.a)| > 0)
    ensures r.emitted.Some? ==>
              && r.emitted.value == BookView(r.book.bids, r.book.asks)
              && IsTopLevels(BidSide, r.book.bids, MergeMap(map[], b.bids + ValidLevels(f.b)))
              && IsTopLevels(AskSide, r.book.asks, MergeMap(map[], b.asks + ValidLevels(f.a)))
    ensures WellFormed(b) ==> WellFormed(r.book)
  {
    var id := UpdateId(f);
    if IsStale(b.cursor, id) then DiffOutcome(b, None)
    else
      var bids := ValidLevels(f.b);
      var asks := ValidLevels(f.a);
      if |bids| == 0 && |asks| == 0 then DiffOutcome(b.(cursor := Seen(id)), None)
      else
        var newBids := MergeSide(BidSide, b.bids, bids);
        var newAsks := MergeSide(AskSide, b.asks, asks);
        NonEmptyAfterMerge(BidSide, b.bids, bids, newBids);
        NonEmptyAfterMerge(AskSide, b.asks, asks, newAsks);
        var emitted := if |newBids| > 0 || |newAsks| > 0 then Some(BookView(newBids, newAsks)) else None;
        DiffOutcome(Book(newBids, newAsks, Seen(id)), emitted)
  }

  lemma {:induction false} MergeMapKeys(m: map<real, real>, ls: seq<Level>)
    ensures MergeMap(m, ls).Keys == m.Keys + Prices(ls)
    decreases |ls|
  {
    if |ls| > 0 {
      MergeMapKeys(m[ls[0].price := ls[0].qty], ls[1..]);
      assert Prices(ls) == {ls[0].price} + Prices(ls[1..]) by {
        forall p | p in Prices(ls) ensures p in {ls[0].price} + Prices(ls[1..]) {
          var i :| 0 <= i < |ls| && ls[i].price == p;
          if i > 0 { assert ls[1..][i - 1].price == p; }
        }
        forall p | p in Prices(ls[1..]) ensures p in Prices(ls) {
          var i :| 0 <= i < |ls[1..]| && ls[1..][i].price == p;
          assert ls[i + 1].price == p;
        }
      }
    }
  }

  /** A merge with at least one level gives a side with at least one level,
      so the emptiness test before publishing always passes. */
  lemma NonEmptyAfterMerge(side: BookSide, current: seq<Level>, levels: seq<Level>, r: seq<Level>)
    requires IsTopLevels(side, r, MergeMap(map[], current + levels))
    ensures |levels| > 0 ==> |r| > 0
  {
    if |levels| > 0 {
      MergeMapKeys(map[], current + levels);
      assert levels[0] == (current + levels)[|current|];
      assert levels[0].price in Prices(current + levels);
    }
  }

  /** No frame removes a price from the merged map: a level with quantity
      zero is filtered out before the merge, so its price keeps its old
      quantity. Only the cut to `Depth` drops levels. */
  lemma MergeNeverRemoves(current: seq<Level>, raw: seq<RawLevel>, p: real)
    requires p in Prices(current)
    ensures p in MergeMap(map[], current + ValidLevels(raw))
  {
    MergeMapKeys(map[], current + ValidLevels(raw));
    var i :| 0 <= i < |current| && current[i].price == p;
    assert (current + ValidLevels(raw))[i].price == p;
  }

  /** Frames applied in order. */
  function ApplyAll(b: Book, fs: seq<DepthFields>): (r: Book)
    decreases |fs|
  {
    if |fs| == 0 then b else ApplyAll(ApplyDiff(b, fs[0]).book, fs[1..])
  }

  /** Whatever frames arrive, in whatever order of ids, a book that starts
      well formed (the empty book after an open) stays well formed: sorted,
      no repeated price, at most twenty levels a side. */
  lemma {:induction false} ApplyAllKeepsWellFormed(b: Book, fs: seq<DepthFields>)
    requires WellFormed(b)
    ensures WellFormed(ApplyAll(b, fs))
    decreases |fs|
  {
    if |fs| > 0 {
      ApplyAllKeepsWellFormed(ApplyDiff(b, fs[0]).book, fs[1..]);
    }
  }
}

=== FILE: records.dfy ===
/** The typed payloads the streaming client hands to its subscribers. */
module Records {
  import opened JsValues

  datatype Side = Buy | Sell

  /** A sanitized 24-hour ticker: every field is a number. */
  datatype Ticker = Ticker(price: real, changePercent: real, high: real, low: real, volume: real)

  /** One trade of the tape; `time` is in milliseconds. */
  datatype Trade = Trade(side: Side, price: real, qty: real, time: int)

  /** One candlestick; `time` is the bucket start in seconds. Fields may be
      NaN when the candle comes from an unsanitized source. */
  datatype Candle = Candle(time: int, open: Num, high: Num, low: Num, close: Num, volume: Num)

  /** One price level of the order book. */
  datatype Level = Level(price: real, qty: real)

  /** Both sides of the order book as published to subscribers. */
  datatype BookView = BookView(bids: seq<Level>, asks: seq<Level>)

  /** The logical channels the client opens a socket for. */
  datatype Kind = TickerStream | DepthStream | TradeStream

  /** One inbound frame on a channel: unparseable JSON, a heartbeat
      acknowledgement (`pong` or `result: null`), or a payload. */
  datatype Frame<P> = Garbled | Control | Payload(body: P)
}

=== FILE: sanitize.dfy ===
/** The main client's field sanitizers for ticker, trade and kline frames:
    a frame whose load-bearing field is NaN or zero is discarded, any other
    NaN field falls back to a default. */
module Sanitize {
  import opened JsValues
  import opened Records

  /** The fields of a `@ticker` frame the client reads. */
  datatype TickerFields = TickerFields(c: RawField, P: RawField, h: RawField, l: RawField, v: RawField)

  /** The fields of a `@trade` frame: price, quantity, buyer-is-maker flag
      and trade time. */
  datatype TradeFields = TradeFields(p: RawField, q: RawField, m: bool, T: Option<int>)

  /** The `k` object of a kline frame. */
  datatype KlineBody = KlineBody(x: bool, t: int, o: RawField, h: RawField, l: RawField, c: RawField, v: RawField)

  datatype KlineFields = KlineFields(k: Option<KlineBody>)

  function SanitizeTicker(f: TickerFields): (r: Option<Ticker>)
    ensures r.None? <==> NaNOrZero(ParseFloat(f.c))
    ensures r.Some? ==> Real(r.value.price) == ParseFloat(f.c) && r.value.price != 0.0
    ensures r.Some? && ParseFloat(f.P).NaN? ==> r.value.changePercent == 0.0
    ensures r.Some? && ParseFloat(f.h).NaN? ==> r.value.high == r.value.price
    ensures r.Some? && ParseFloat(f.l).NaN? ==> r.value.low == r.value.price
    ensures r.Some? && ParseFloat(f.v).NaN? ==> r.value.volume == 0.0
  {
    var price := ParseFloat(f.c);
    if NaNOrZero(price) then None
    else
      var p := price.v;
      Some(Ticker(p, OrIfNaN(ParseFloat(f.P), 0.0), OrIfNaN(ParseFloat(f.h), p),
                  OrIfNaN(ParseFloat(f.l), p), OrIfNaN(ParseFloat(f.v), 0.0)))
  }

  function SanitizeTrade(f: TradeFields, now: int): (r: Option<Trade>)
    ensures r.None? <==> NaNOrZero(ParseFloat(f.p)) || NaNOrZero(ParseFloat(f.q))
    ensures r.Some? ==> Real(r.value.price) == ParseFloat(f.p) && Real(r.value.qty) == ParseFloat(f.q)
    ensures r.Some? ==> r.value.price != 0.0 && r.value.qty != 0.0
    ensures r.Some? ==> (r.value.side == Sell <==> f.m)
    ensures r.Some? && (f.T.None? || f.T.value == 0) ==> r.value.time == now
  {
    var price := ParseFloat(f.p);
    var qty := ParseFloat(f.q);
    if NaNOrZero(price) || NaNOrZero(qty) then None
    else Some(Trade(if f.m then Sell else Buy, price.v, qty.v, IntOr(f.T, now)))
  }

  /** Only closed klines with a usable close price become candles; the
      candle time is the kline start in whole seconds. */
  function SanitizeKline(f: KlineFields): (r: Option<Candle>)
    ensures r.Some? <==> f.k.Some? && f.k.value.x && !NaNOrZero(ParseFloat(f.k.value.c))
    ensures r.Some? ==> r.value.close == ParseFloat(f.k.value.c)
    ensures r.Some? ==> r.value.time * 1000 <= f.k.value.t < r.value.time * 1000 + 1000
    ensures r.Some? ==> && r.value.open.Real? && r.value.high.Real? && r.value.low.Real?
                        && r.value.volume.Real?
    ensures r.Some? && ParseFloat(f.k.value.o).NaN? ==> r.value.open == r.value.close
    ensures r.Some? && ParseFloat(f.k.value.h).NaN? ==> r.value.high == r.value.close
    ensures r.Some? && ParseFloat(f.k.value.l).NaN? ==> r.value.low == r.value.close
    ensures r.Some? && ParseFloat(f.k.value.v).NaN? ==> r.value.volume == Real(0.0)
    ensures r.Some? && ParseFloat(f.k.value.o).Real? ==> r.value.open == ParseFloat(f.k.value.o)
    ensures r.Some? && ParseFloat(f.k.value.h).Real? ==> r.value.high == ParseFloat(f.k.value.h)
    ensures r.Some? && ParseFloat(f.k.value.l).Real? ==> r.value.low == ParseFloat(f.k.value.l)
    ensures r.Some? && ParseFloat(f.k.value.v).Real? ==> r.value.volume == ParseFloat(f.k.value.v)
  {
    match f.k
    case None => None
    case Some(k) =>
      if !k.x then None
      else
        var close := ParseFloat(k.c);
        if NaNOrZero(close) then None
        else
          var c := close.v;
          Some(Candle(FloorDiv(k.t, 1000), Real(OrIfNaN(ParseFloat(k.o), c)),
                      Real(OrIfNaN(ParseFloat(k.h), c)), Real(OrIfNaN(ParseFloat(k.l), c)),
                      close, Real(OrIfNaN(ParseFloat(k.v), 0.0))))
  }

  /** The frame a ticker would arrive in. */
  function TickerFrameOf(t: Ticker): TickerFields
  {
    TickerFields(Present(Real(t.price)), Present(Real(t.changePercent)), Present(Real(t.high)),
                 Present(Real(t.low)), Present(Real(t.volume)))
  }

  /** Sanitizing the frame of a ticker with a non-zero price gives it back. */
  lemma TickerRoundTrip(t: Ticker)
    requires t.price != 0.0
    ensures SanitizeTicker(TickerFrameOf(t)) == Some(t)
  {
  }

  /** A corrupt secondary field never causes a discard: whether a ticker
      frame is kept, and its price, depend on `c` alone, and each secondary
      output depends only on its own field. */
  lemma TickerFieldsIndependent(f: TickerFields, g: TickerFields)
    requires f.c == g.c
    ensures SanitizeTicker(f).Some? <==> SanitizeTicker(g).Some?
    ensures SanitizeTicker(f).Some? ==>
              && SanitizeTicker(f).value.price == SanitizeTicker(g).value.price
              && (f.P == g.P ==> SanitizeTicker(f).value.changePercent == SanitizeTicker(g).value.changePercent)
              && (f.h == g.h ==> SanitizeTicker(f).value.high == SanitizeTicker(g).value.high)
              && (f.l == g.l ==> SanitizeTicker(f).value.low == SanitizeTicker(g).value.low)
              && (f.v == g.v ==> SanitizeTicker(f).value.volume == SanitizeTicker(g).value.volume)
  {
  }

  /** The frame a trade would arrive in. */
  function TradeFrameOf(t: Trade): TradeFields
  {
    TradeFields(Present(Real(t.price)), Present(Real(t.qty)), t.side == Sell, Some(t.time))
  }

  /** Sanitizing the frame of a trade with non-zero price, quantity and
      time gives it back, whatever the clock says. */
  lemma TradeRoundTrip(t: Trade, now: int)
    requires t.price != 0.0 && t.qty != 0.0 && t.time != 0
    ensures SanitizeTrade(TradeFrameOf(t), now) == Some(t)
  {
  }

  /** A corrupt secondary field never causes a discard: whether a closed
      kline becomes a candle, and its time and close, depend only on `x`,
      `t` and `c`, and each other output depends only on its own field. */
  lemma KlineFieldsIndependent(a: KlineBody, b: KlineBody)
    requires a.x == b.x && a.t == b.t && a.c == b.c
    ensures var ra := SanitizeKline(KlineFields(Some(a)));
      var rb := SanitizeKline(KlineFields(Some(b)));
      && (ra.Some? <==> rb.Some?)
      && (ra.Some? ==>
            && ra.value.time == rb.value.time && ra.value.close == rb.value.close
            && (a.o == b.o ==> ra.value.open == rb.value.open)
            && (a.h == b.h ==> ra.value.high == rb.value.high)
            && (a.l == b.l ==> ra.value.low == rb.value.low)
            && (a.v == b.v ==> ra.value.volume == rb.value.volume))
  {
  }

  /** The closed kline frame a candle without NaN fields would arrive in,
      `ms` milliseconds into its bucket. */
  function KlineFrameOf(c: Candle, ms: nat): KlineFields
    requires ms < 1000
  {
    KlineFields(Some(KlineBody(true, c.time * 1000 + ms, Present(c.open), Present(c.high),
                               Present(c.low), Present(c.close), Present(c.volume))))
  }

  /** Sanitizing the frame of a candle with numeric fields and a non-zero
      close gives it back. */
  lemma KlineRoundTrip(c: Candle, ms: nat)
    requires ms < 1000
    requires c.open.Real? && c.high.Real? && c.low.Real? && c.volume.Real?
    requires c.close.Real? && c.close.v != 0.0
    ensures SanitizeKline(KlineFrameOf(c, ms)) == Some(c)
  {
    var r := SanitizeKline(KlineFrameOf(c, ms));
    assert r.value.time == c.time;
  }
}

=== FILE: scenarios.dfy ===
/** End-to-end behaviour of the main client and the store on concrete
    frames, as the code computes it. */
module Scenarios {
  import opened JsValues
  import opened Records
  import opened OrderBook
  import StreamClient
  import MarketStore
  import Sanitize

  /** The store after the client handled one event and the store's
      subscribers saw whatever it emitted. */
  function Deliver(s: MarketStore.Store, o: StreamClient.ClientOutcome): (r: MarketStore.Store)
    ensures o.emitted.None? ==> r == s
  {
    match o.emitted
    case Some(e) => MarketStore.Receive(s, e)
    case None => s
  }

  /** A ticker frame with price "0" is discarded, so the stored ticker of
      68500 / 68600 / 66000 is unchanged, whatever `P` says. */
  lemma ZeroPriceTickerIsDiscarded(cl: StreamClient.Client)
    ensures var f := Sanitize.TickerFields(Present(Real(0.0)), Present(Real(1.2)), Absent, Absent, Absent);
      var o := StreamClient.Handle(cl, StreamClient.TickerMessage(Payload(f)));
      var s := MarketStore.InitialStore.(connected := true);
      && o.next == cl
      && Deliver(s, o) == s
      && Deliver(s, o).lastPrice == Real(68500.0) && Deliver(s, o).high24h == Real(68600.0)
      && Deliver(s, o).low24h == Real(66000.0)
  {
  }

  const TwoBids: Book := Book([Level(100.0, 1.0), Level(99.0, 2.0)], [], Unset)

  /** A diff `{u: 5, b: [["100", "0"]]}` on bids [[100, 1], [99, 2]] with no
      cursor: the zero quantity is filtered out before the removal branch,
      so the bids stay as they were, the cursor becomes 5 and nothing is
      emitted. */
  lemma ZeroQuantityDiffKeepsLevel()
    ensures var d := ApplyDiff(TwoBids, DepthFields(Some(5), None, [RawLevel(Present(Real(100.0)), Present(Real(0.0)))], []));
      && d.book.bids == [Level(100.0, 1.0), Level(99.0, 2.0)]
      && d.book.cursor == Seen(Some(5))
      && d.emitted.None?
  {
  }

  /** After that diff, `{u: 3}` is stale and changes nothing. */
  lemma OlderDiffIsStale(rl: seq<RawLevel>)
    ensures var b := ApplyDiff(TwoBids, DepthFields(Some(5), None, [RawLevel(Present(Real(100.0)), Present(Real(0.0)))], [])).book;
      ApplyDiff(b, DepthFields(Some(3), None, rl, [])) == DiffOutcome(b, None)
  {
  }

  const NewBidFrame: DepthFields := DepthFields(Some(6), None, [RawLevel(Present(Real(101.0)), Present(Real(3.0)))], [])

  lemma NewBidMap()
    ensures MergeMap(map[], TwoBids.bids + ValidLevels(NewBidFrame.b)) == map[100.0 := 1.0, 99.0 := 2.0, 101.0 := 3.0]
  {
    assert ValidLevels(NewBidFrame.b) == [Level(101.0, 3.0)];
    var ls := [Level(100.0, 1.0), Level(99.0, 2.0), Level(101.0, 3.0)];
    assert TwoBids.bids + [Level(101.0, 3.0)] == ls;
    assert ls[1..][1..][1..] == [];
    calc {
      MergeMap(map[], ls);
      MergeMap(map[100.0 := 1.0], ls[1..]);
      MergeMap(map[100.0 := 1.0, 99.0 := 2.0], ls[1..][1..]);
      MergeMap(map[100.0 := 1.0, 99.0 := 2.0, 101.0 := 3.0], ls[1..][1..][1..]);
    }
  }

  /** The only listing of the map {99, 100, 101} in bid order. */
  lemma ThreeBidsListing(bids: seq<Level>)
    requires IsTopLevels(BidSide, bids, map[100.0 := 1.0, 99.0 := 2.0, 101.0 := 3.0])
    ensures bids == [Level(101.0, 3.0), Level(100.0, 1.0), Level(99.0, 2.0)]
  {
    var m := map[100.0 := 1.0, 99.0 := 2.0, 101.0 := 3.0];
    assert m.Keys == {99.0, 100.0, 101.0};
    assert |m| == 3;
    assert |bids| == 3;
    assert bids[0].price > bids[1].price > bids[2].price;
    assert bids[0].price in m.Keys && bids[1].price in m.Keys && bids[2].price in m.Keys;
  }

  /** A level with a positive quantity is merged at its place by price and
      the book is published. */
  lemma NewBidIsMergedInOrder()
    ensures var d := ApplyDiff(TwoBids, NewBidFrame);
      && d.book.bids == [Level(101.0, 3.0), Level(100.0, 1.0), Level(99.0, 2.0)]
      && d.emitted == Some(BookView(d.book.bids, []))
  {
    var d := ApplyDiff(TwoBids, NewBidFrame);
    NewBidMap();
    assert |ValidLevels(NewBidFrame.b)| > 0;
    ThreeBidsListing(d.book.bids);
    assert |ValidLevels(NewBidFrame.a)| == 0;
    assert MergeMap(map[], TwoBids.asks + ValidLevels(NewBidFrame.a)) == map[];
  }

  /** Whenever the client publishes a book, the store holds exactly the
      client's book afterwards. */
  lemma StoreMirrorsClientBook(cl: StreamClient.Client, f: DepthFields, s: MarketStore.Store)
    ensures var o := StreamClient.Handle(cl, StreamClient.DepthMessage(Payload(f)));
      o.emitted.Some? ==> Deliver(s, o).bids == o.next.book.bids && Deliver(s, o).asks == o.next.book.asks
  {
  }

  /** A closed bar for the time of the last stored candle replaces that
      candle instead of adding a second one. */
  lemma SameTimeCandleReplacesLast(older: Candle, last: Candle, c: Candle)
    requires older.time < last.time == c.time && Positive(c.close)
    ensures MarketStore.ApplyCandleUpdate([older, last], c) == [older, c]
  {
  }
}

=== FILE: stream_client.dfy ===
/** The main streaming client `createBinanceWebSocket`: three channels
    (ticker, depth, trades), the client-side order book, message dispatch
    to the sanitizers, and `start`/`stop`. The kline poll is represented
    only by the interval it owns. */
module StreamClient {
  import opened JsValues
  import opened Records
  import opened Channel
  import opened Sanitize
  import opened OrderBook

  /** `polls` counts running kline poll intervals; `pollTracked` says
      whether `connections._klinePoll` holds one that `stop()` can clear. */
  datatype Client = Client(
    ticker: ChannelState,
    depth: ChannelState,
    trades: ChannelState,
    book: Book,
    polls: nat,
    pollTracked: bool)

  /** What the client hands to its listeners. */
  datatype Emission =
    | TickerUpdate(ticker: Ticker)
    | BookUpdate(view: BookView)
    | TradeUpdate(trade: Trade)
    | Reconnected(kind: Kind)

  /** `Start` lists the channels whose socket constructor throws during
      `start()`. */
  datatype ClientEvent =
    | Start(throwing: set<Kind>)
    | Stop
    | Socket(kind: Kind, event: Event)
    | TickerMessage(tickerFrame: Frame<TickerFields>)
    | DepthMessage(depthFrame: Frame<DepthFields>)
    | TradeMessage(tradeFrame: Frame<TradeFields>, now: int)

  datatype ClientOutcome = ClientOutcome(next: Client, emitted: Option<Emission>)

  const Initial: Client := Client(Fresh, Fresh, Fresh, EmptyBook, 0, false)

  function ChannelOf(cl: Client, k: Kind): ChannelState
  {
    match k
    case TickerStream => cl.ticker
    case DepthStream => cl.depth
    case TradeStream => cl.trades
  }

  function WithChannel(cl: Client, k: Kind, c: ChannelState): Client
  {
    match k
    case TickerStream => cl.(ticker := c)
    case DepthStream => cl.(depth := c)
    case TradeStream => cl.(trades := c)
  }

  /** `ws.onopen`, `ws.onclose` and timers of one channel; an open of the
      depth channel also clears the book and its cursor. */
  function OnSocket(cl: Client, k: Kind, e: Event): ClientOutcome
  {
    var o := Step(Persistent, ChannelOf(cl, k), e);
    var reset := k == DepthStream && e == SocketOpened && cl.depth.socket == Connecting;
    var next := WithChannel(cl, k, o.next);
    ClientOutcome(if reset then next.(book := EmptyBook) else next,
                  if o.notify then Some(Reconnected(k)) else None)
  }

  /** `ws.onmessage`: unparseable frames and heartbeat acknowledgements are
      dropped; payloads go to the branch of `handleMessage` for the channel. */
  function OnMessage(cl: Client, ev: ClientEvent): ClientOutcome
    requires ev.TickerMessage? || ev.DepthMessage? || ev.TradeMessage?
  {
    match ev
    case TickerMessage(fr) =>
      (match fr
       case Payload(f) =>
         ClientOutcome(cl, match SanitizeTicker(f) case Some(t) => Some(TickerUpdate(t)) case None => None)
       case _ => ClientOutcome(cl, None))
    case DepthMessage(fr) =>
      (match fr
       case Payload(f) =>
         var d := ApplyDiff(cl.book, f);
         ClientOutcome(cl.(book := d.book), match d.emitted case Some(v) => Some(BookUpdate(v)) case None => None)
       case _ => ClientOutcome(cl, None))
    case TradeMessage(fr, now) =>
      (match fr
       case Payload(f) =>
         ClientOutcome(cl, match SanitizeTrade(f, now) case Some(t) => Some(TradeUpdate(t)) case None => None)
       case _ => ClientOutcome(cl, None))
  }

  /** `start()`: connect the three channels and start the kline poll. A
      channel whose constructor throws is handed to `reconnect`. */
  function StartAll(cl: Client, throwing: set<Kind>): (r: Client)
    ensures forall k :: Started(Persistent, ChannelOf(cl, k), ChannelOf(r, k), k in throwing)
    ensures r.polls == cl.polls + 1 && r.pollTracked
    ensures r.book == cl.book
  {
    StartChannel(Persistent, cl.ticker, TickerStream in throwing);
    StartChannel(Persistent, cl.depth, DepthStream in throwing);
    StartChannel(Persistent, cl.trades, TradeStream in throwing);
    cl.(ticker := Connect(Persistent, cl.ticker, TickerStream in throwing),
        depth := Connect(Persistent, cl.depth, DepthStream in throwing),
        trades := Connect(Persistent, cl.trades, TradeStream in throwing),
        polls := cl.polls + 1,
        pollTracked := true)
  }

  /** `stop()`: close every channel, clear the tracked timers, forget the
      counters and clear the tracked poll interval. */
  function StopAll(cl: Client): (r: Client)
    ensures forall k :: && ChannelOf(r, k).tracked.None? && ChannelOf(r, k).attempts == 0
                        && !Live(ChannelOf(r, k).socket)
                        && (forall t :: t in ChannelOf(r, k).timers <==>
                                          t in ChannelOf(cl, k).timers && Some(t.id) != ChannelOf(cl, k).tracked)
    ensures forall k :: ChannelOf(r, k) == Channel.Stop(ChannelOf(cl, k))
    ensures forall k :: Live(ChannelOf(cl, k).socket) ==> ChannelOf(r, k).socket == Closing
    ensures cl.pollTracked && cl.polls > 0 ==> r.polls == cl.polls - 1
    ensures !cl.pollTracked ==> r.polls == cl.polls
    ensures !r.pollTracked && r.book == cl.book
  {
    cl.(ticker := Channel.Stop(cl.ticker),
        depth := Channel.Stop(cl.depth),
        trades := Channel.Stop(cl.trades),
        polls := if cl.pollTracked && cl.polls > 0 then cl.polls - 1 else cl.polls,
        pollTracked := false)
  }

  function Handle(cl: Client, ev: ClientEvent): (r: ClientOutcome)
    ensures r.emitted.Some? ==> !r.emitted.value.Reconnected?
    ensures ev.Socket? ==> forall k :: k != ev.kind ==> ChannelOf(r.next, k) == ChannelOf(cl, k)
    ensures ev.Socket? ==>
              && ChannelOf(r.next, ev.kind) == Step(Persistent, ChannelOf(cl, ev.kind), ev.event).next
              && r.next.polls == cl.polls && r.next.pollTracked == cl.pollTracked
              && (r.next.book == cl.book
                  || (ev.kind == DepthStream && ev.event == SocketOpened && cl.depth.socket == Connecting))
    ensures !ev.Socket? && !ev.Start? && !ev.Stop? ==>
              && r.next.ticker == cl.ticker && r.next.depth == cl.depth && r.next.trades == cl.trades
    ensures ev == Socket(DepthStream, SocketOpened) && cl.depth.socket == Connecting ==>
              r.next.book == EmptyBook
    ensures ((ev.TickerMessage? && !ev.tickerFrame.Payload?) || (ev.DepthMessage? && !ev.depthFrame.Payload?)
             || (ev.TradeMessage? && !ev.tradeFrame.Payload?)) ==> r == ClientOutcome(cl, None)
    ensures ev.Stop? ==> && !r.next.pollTracked
                         && r.next.ticker.tracked.None? && r.next.depth.tracked.None?
                         && r.next.trades.tracked.None?
    ensures ev.Start? ==> r == ClientOutcome(StartAll(cl, ev.throwing), None)
    ensures ev.Stop? ==> r == ClientOutcome(StopAll(cl), None)
    ensures ev.TickerMessage? && ev.tickerFrame.Payload? ==>
              && r.next == cl
              && (SanitizeTicker(ev.tickerFrame.body).Some? ==>
                    r.emitted == Some(TickerUpdate(SanitizeTicker(ev.tickerFrame.body).value)))
              && (SanitizeTicker(ev.tickerFrame.body).None? ==> r.emitted.None?)
    ensures ev.DepthMessage? && ev.depthFrame.Payload? ==>
              && r.next == cl.(book := ApplyDiff(cl.book, ev.depthFrame.body).book)
              && (ApplyDiff(cl.book, ev.depthFrame.body).emitted.Some? ==>
                    r.emitted == Some(BookUpdate(ApplyDiff(cl.book, ev.depthFrame.body).emitted.value)))
              && (ApplyDiff(cl.book, ev.depthFrame.body).emitted.None? ==> r.emitted.None?)
    ensures ev.TradeMessage? && ev.tradeFrame.Payload? ==>
              && r.next == cl
              && (SanitizeTrade(ev.tradeFrame.body, ev.now).Some? ==>
                    r.emitted == Some(TradeUpdate(SanitizeTrade(ev.tradeFrame.body, ev.now).value)))
              && (SanitizeTrade(ev.tradeFrame.body, ev.now).None? ==> r.emitted.None?)
    ensures r.emitted.Some? && r.emitted.value.TickerUpdate? ==> r.emitted.value.ticker.price != 0.0
    ensures r.emitted.Some? && r.emitted.value.BookUpdate? ==>
              |r.emitted.value.view.bids| > 0 || |r.emitted.value.view.asks| > 0
  {
    match ev
    case Start(throwing) => ClientOutcome(StartAll(cl, throwing), None)
    case Stop => ClientOutcome(StopAll(cl), None)
    case Socket(k, e) => OnSocket(cl, k, e)
    case _ => OnMessage(cl, ev)
  }

  /** The client's book is well formed after any event, so every published
      view is sorted, without repeated prices and at most twenty deep. */
  lemma HandleKeepsBookWellFormed(cl: Client, ev: ClientEvent)
    requires WellFormed(cl.book)
    ensures WellFormed(Handle(cl, ev).next.book)
    ensures var r := Handle(cl, ev);
      r.emitted.Some? && r.emitted.value.BookUpdate? ==>
        && r.emitted.value.view.bids == r.next.book.bids
        && r.emitted.value.view.asks == r.next.book.asks
  {
  }

  /** Events applied in order, with everything they publish. */
  function Run(cl: Client, evs: seq<ClientEvent>): (r: (Client, seq<Emission>))
    decreases |evs|
  {
    if |evs| == 0 then (cl, [])
    else
      var o := Handle(cl, evs[0]);
      var rest := Run(o.next, evs[1..]);
      (rest.0, (match o.emitted case Some(e) => [e] case None => []) + rest.1)
  }

  /** Reconnect listeners are never called, whatever happens: the counter
      is compared with zero after `onopen` has reset it. */
  lemma {:induction false} NoReconnectNotification(cl: Client, evs: seq<ClientEvent>)
    ensures forall i :: 0 <= i < |Run(cl, evs).1| ==> !Run(cl, evs).1[i].Reconnected?
    decreases |evs|
  {
    if |evs| > 0 {
      var o := Handle(cl, evs[0]);
      NoReconnectNotification(o.next, evs[1..]);
      var head: seq<Emission> := match o.emitted case Some(e) => [e] case None => [];
      assert Run(cl, evs).1 == head + Run(o.next, evs[1..]).1;
    }
  }

  /** The client's book stays well formed over any run that starts from a
      well-formed book, such as the empty book of the initial client. */
  lemma {:induction false} RunKeepsBookWellFormed(cl: Client, evs: seq<ClientEvent>)
    requires WellFormed(cl.book)
    ensures WellFormed(Run(cl, evs).0.book)
    decreases |evs|
  {
    if |evs| > 0 {
      HandleKeepsBookWellFormed(cl, evs[0]);
      RunKeepsBookWellFormed(Handle(cl, evs[0]).next, evs[1..]);
    }
  }

  /** Calling `start()` twice before `stop()` leaves a kline poll running:
      only the interval stored last is cleared. */
  lemma DoubleStartLeaksPoll(cl: Client, first: set<Kind>, second: set<Kind>)
    requires cl.polls == 0
    ensures Run(cl, [Start(first), Start(second), Stop]).0.polls == 1
  {
    var a := Handle(cl, Start(first)).next;
    var b := Handle(a, Start(second)).next;
    var c := Handle(b, Stop).next;
    assert Run(cl, [Start(first), Start(second), Stop]).0 == Run(a, [Start(second), Stop]).0;
    assert Run(a, [Start(second), Stop]).0 == Run(b, [Stop]).0;
    assert Run(b, [Stop]).0 == c;
  }
}

=== FILE: supervisor.dfy ===
/** Properties of the main client's reconnection policy: capped backoff,
    the 60 s cooldown after the last attempt, close codes that suppress
    reconnection, and what `stop()` leaves armed. */
module Supervisor {
  import opened JsValues
  import opened Backoff
  import opened Channel

  /** The delay of the timer pending while the counter holds `a`: the
      cooldown right after the counter was reset, the backoff otherwise. */
  function PendingDelay(a: nat): nat
    requires a <= MaxAttempts
  {
    if a == 0 then CooldownMs else Delay(a)
  }

  /** The states a channel reaches from a fresh `connect` through socket
      and timer events alone: a live socket has no timer pending, a dead one
      at most one, and that timer's delay and action follow from the counter. */
  ghost predicate Steady(c: ChannelState)
  {
    && c.attempts <= MaxAttempts
    && (c.pinging <==> c.socket == Open)
    && ((Live(c.socket) && c.timers == []) || (Down(c.socket) && |c.timers| <= 1))
    && (|c.timers| == 1 ==>
          && c.timers[0].delayMs == PendingDelay(c.attempts)
          && (c.timers[0].action == RetryLater <==> c.attempts == 0))
  }

  /** A dead channel that waits for a retry. */
  ghost predicate AwaitingRetry(c: ChannelState)
  {
    Steady(c) && Down(c.socket) && |c.timers| == 1
  }

  /** The first `connect` of a channel starts it in a steady state. */
  lemma ConnectFromFresh(throws: bool)
    ensures Steady(Connect(Persistent, Fresh, throws))
    ensures !throws ==> Connect(Persistent, Fresh, throws).socket == Connecting
    ensures throws ==> AwaitingRetry(Connect(Persistent, Fresh, throws))
  {
  }

  /** Every socket or timer event keeps a channel steady. */
  lemma StepKeepsSteady(c: ChannelState, e: Event)
    requires Steady(c)
    ensures Steady(Step(Persistent, c, e).next)
  {
    match e
    case SocketOpened =>
    case SocketClosed(code) =>
    case TimerFired(id, throws) =>
      match FindTimer(c.timers, id)
      case None =>
      case Some(t) =>
        assert c.timers == [t];
        WithoutOnly(c.timers);
  }

  /** A close schedules a reconnect exactly when its code is neither 1000
      nor 1001; otherwise the channel stays down with nothing pending. */
  lemma CloseSchedulesRetryUnlessNormal(c: ChannelState, code: int)
    requires Steady(c) && Live(c.socket)
    ensures var r := Step(Persistent, c, SocketClosed(code)).next;
      && Down(r.socket) && !r.pinging
      && (|r.timers| == 1 <==> !IsNormalClose(code))
      && (IsNormalClose(code) ==> r.timers == [] && r.attempts == c.attempts)
      && (!IsNormalClose(code) && c.attempts < MaxAttempts ==>
            r.attempts == c.attempts + 1 && r.timers[0].delayMs == Delay(c.attempts + 1))
  {
  }

  /** A channel waiting for a retry never goes dark: whatever happens next,
      it is either connecting again or still waiting for a retry. */
  lemma RetryNeverLapses(c: ChannelState, e: Event)
    requires AwaitingRetry(c)
    ensures var r := Step(Persistent, c, e).next;
      (r.socket == Connecting && r.timers == []) || AwaitingRetry(r)
  {
    StepKeepsSteady(c, e);
    match e
    case SocketOpened =>
    case SocketClosed(code) =>
    case TimerFired(id, throws) =>
      match FindTimer(c.timers, id)
      case None =>
      case Some(t) =>
        assert c.timers == [t];
        WithoutOnly(c.timers);
  }

  /** The counter after one more failure: `reconnect` increments it and
      resets it once it has reached the maximum. */
  function NextCounter(a: nat): nat
  {
    if a >= MaxAttempts then 0 else a + 1
  }

  /** The counter after `i` more failures. */
  function CounterAfter(a: nat, i: nat): (r: nat)
    ensures a <= MaxAttempts ==> r <= MaxAttempts
    decreases i
  {
    if i == 0 then a else CounterAfter(NextCounter(a), i - 1)
  }

  /** The counter runs through the eleven values 0 to `MaxAttempts` = 10
      cyclically. */
  lemma {:induction false} CounterAfterIsCyclic(a: nat, i: nat)
    requires a <= MaxAttempts
    ensures CounterAfter(a, i) == (a + i) % 11
    decreases i
  {
    if i > 0 {
      CounterAfterIsCyclic(NextCounter(a), i - 1);
      if a == 10 {
        assert a + i == (i - 1) + 11;
      }
    }
  }

  /** One failed retry: the pending timer fires and, if it opened a socket,
      that socket closes abnormally before it opens. */
  function FailRound(c: ChannelState): (r: ChannelState)
    requires AwaitingRetry(c)
    ensures AwaitingRetry(r)
    ensures r.attempts == NextCounter(c.attempts)
  {
    var fire := TimerFired(c.timers[0].id, false);
    StepKeepsSteady(c, fire);
    RetryNeverLapses(c, fire);
    WithoutOnly(c.timers);
    var fired := Step(Persistent, c, fire).next;
    if fired.socket == Connecting then
      StepKeepsSteady(fired, SocketClosed(AbnormalClosure));
      Step(Persistent, fired, SocketClosed(AbnormalClosure)).next
    else fired
  }

  /** The delays of the next `k` retries when every retry fails. */
  function RetryDelays(c: ChannelState, k: nat): (ds: seq<nat>)
    requires AwaitingRetry(c)
    ensures |ds| == k
    decreases k
  {
    if k == 0 then [] else [c.timers[0].delayMs] + RetryDelays(FailRound(c), k - 1)
  }

  lemma RetryDelaysUnfold(c: ChannelState, k: nat)
    requires AwaitingRetry(c) && k > 0
    ensures RetryDelays(c, k)[0] == PendingDelay(c.attempts)
    ensures forall i :: 1 <= i < k ==> RetryDelays(c, k)[i] == RetryDelays(FailRound(c), k - 1)[i - 1]
  {
  }

  /** The delay of the `i`-th of the next `k` retries under repeated failure. */
  lemma {:induction false} RetryDelayAt(c: ChannelState, k: nat, i: nat)
    requires AwaitingRetry(c) && i < k
    ensures RetryDelays(c, k)[i] == PendingDelay(CounterAfter(c.attempts, i))
    decreases i
  {
    RetryDelaysUnfold(c, k);
    if i > 0 {
      RetryDelayAt(FailRound(c), k - 1, i - 1);
    }
  }

  /** Under repeated failure the retry delays run through a cycle of eleven:
      the backoff for counters 1 to 10, then the cooldown, then again. */
  lemma RetryDelaysCycle(c: ChannelState, k: nat)
    requires AwaitingRetry(c)
    ensures forall i :: 0 <= i < k ==>
              RetryDelays(c, k)[i] == PendingDelay((c.attempts + i) % 11)
  {
    forall i | 0 <= i < k
      ensures RetryDelays(c, k)[i] == PendingDelay((c.attempts + i) % 11)
    {
      RetryDelayAt(c, k, i);
      CounterAfterIsCyclic(c.attempts, i);
    }
  }

  /** The pending delays after 1 to 12 consecutive failures. */
  function CycleFromFirstFailure(): seq<nat>
  {
    [1000, 2000, 4000, 8000, 16000, 30000, 30000, 30000, 30000, 30000, 60000, 1000]
  }

  lemma CycleValues(i: nat)
    requires i < 12
    ensures PendingDelay(CounterAfter(1, i)) == CycleFromFirstFailure()[i]
  {
    CounterAfterIsCyclic(1, i);
    if i < 10 {
      DelaySchedule(i + 1);
    } else {
      DelaySchedule(1);
    }
  }

  /** From a first failure, the next twelve retry delays are the cycle
      starting at 1000 ms. */
  lemma DelaysAfterFirstFailure(r: ChannelState)
    requires AwaitingRetry(r) && r.attempts == 1
    ensures RetryDelays(r, 12) == CycleFromFirstFailure()
  {
    var ds := RetryDelays(r, 12);
    var cycle := CycleFromFirstFailure();
    forall i | 0 <= i < 12
      ensures ds[i] == cycle[i]
    {
      DelayAfterFirstFailureAt(r, i);
    }
    PointwiseEqual(ds, cycle);
  }

  /** Two sequences of the same length that agree at every index are equal. */
  lemma PointwiseEqual(a: seq<nat>, b: seq<nat>)
    requires |a| == |b|
    requires forall i :: 0 <= i < |a| ==> a[i] == b[i]
    ensures a == b
  {
  }

  lemma DelayAfterFirstFailureAt(r: ChannelState, i: nat)
    requires AwaitingRetry(r) && r.attempts == 1 && i < 12
    ensures RetryDelays(r, 12)[i] == CycleFromFirstFailure()[i]
  {
    RetryDelayAt(r, 12, i);
    CycleValues(i);
  }

  /** An open channel that fails over and over is retried after 1000, 2000,
      4000, 8000, 16000 ms, five times after 30000 ms, then after the
      60000 ms cooldown, and then after 1000 ms again. */
  lemma FailureDelaySequence(c: ChannelState, code: int)
    requires Steady(c) && c.socket == Open && c.attempts == 0 && !IsNormalClose(code)
    ensures var r := Step(Persistent, c, SocketClosed(code)).next;
      AwaitingRetry(r) && RetryDelays(r, 12) == CycleFromFirstFailure()
  {
    var r := Step(Persistent, c, SocketClosed(code)).next;
    StepKeepsSteady(c, SocketClosed(code));
    assert r.attempts == 1;
    DelaysAfterFirstFailure(r);
  }

  /** The retry `stop()` clears never fires: a timer event for the handle
      that was tracked leaves the stopped channel as it is. */
  lemma StopCancelsTrackedRetry(c: ChannelState, id: nat, throws: bool)
    requires c.tracked == Some(id)
    ensures var s := Stop(c);
      Step(Persistent, s, TimerFired(id, throws)).next == s
  {
  }

  /** `stop()` does not clear the cooldown timer: when it fires afterwards
      the channel schedules a new `connect` after 1000 ms. */
  lemma StopLeavesCooldownArmed(c: ChannelState, t: Timer)
    requires t in c.timers && t.action == RetryLater && c.tracked != Some(t.id)
    requires forall u :: u in c.timers && u.id == t.id ==> u == t
    ensures var s := Stop(c);
      var r := Step(Persistent, s, TimerFired(t.id, false)).next;
      && t in s.timers
      && r.attempts == 1
      && r.tracked == Some(s.nextId)
      && r.timers[|r.timers| - 1] == Timer(s.nextId, 1000, ConnectAgain)
  {
    var s := Stop(c);
    assert t in s.timers;
    DelaySchedule(1);
  }

  /** A live socket closed by `stop()` whose close event carries a code
      other than 1000 or 1001 still schedules a reconnect. */
  lemma StopThenAbnormalCloseReconnects(c: ChannelState, code: int)
    requires Live(c.socket) && !IsNormalClose(code)
    ensures var s := Stop(c);
      var r := Step(Persistent, s, SocketClosed(code)).next;
      && s.socket == Closing
      && r.attempts == 1
      && r.timers == s.timers + [Timer(s.nextId, 1000, ConnectAgain)]
  {
    DelaySchedule(1);
  }

  /** A successful open resets the backoff: whatever the counter was, the
      next abnormal close retries after 1000 ms and tracks that retry. */
  lemma OpenResetsBackoff(c: ChannelState, code: int)
    requires Steady(c) && c.socket == Connecting && !IsNormalClose(code)
    ensures var up := Step(Persistent, c, SocketOpened).next;
      var r := Step(Persistent, up, SocketClosed(code)).next;
      && up.attempts == 0 && up.socket == Open
      && AwaitingRetry(r) && r.attempts == 1
      && r.timers == [Timer(c.nextId, 1000, ConnectAgain)]
      && r.tracked == Some(c.nextId)
  {
    DelaySchedule(1);
    var up := Step(Persistent, c, SocketOpened).next;
    StepKeepsSteady(c, SocketOpened);
    StepKeepsSteady(up, SocketClosed(code));
  }
}
